=== FILE: README.md ===
# Finder_Sck in Dafny

A verified model of the search, indexing and navigation logic of Finder_Sck, a Qt file
explorer for macOS. It also covers the small state machines and string rules of the
explorer's widgets. The file system is replaced by abstract entries: each has a path, a
size, a modification time, its age in days, whether it is a directory or a regular
file, whether QFileInfo reports it readable, whether QFile can open it, and its bytes.
The controllers run sequentially: every flag the source keeps in an atomic or guards
with a mutex is an ordinary field, and each signal the source emits is appended to an
`events` field.

One module per source file:

| module | file | models |
|---|---|---|
| `Text` | text.dfy | Shared string rules: ASCII case folding, containment, trimming, split and join, decimal rendering, file name and suffix, a filter-map `Collect`. |
| `Entries` | entries.dfy | The abstract directory entry, timestamps, `Option`. |
| `SearchTypes` | search_types.dfy | `SearchCriteria` and `SearchResult` with their defaults (SearchEngine.h). |
| `SearchMatching` | search_matching.dfy | The name matcher, the size, date, type and exclude filters, the fuzzy score, binary detection, content-line capture and the relevance score. |
| `Search` | search_engine.dfy | Class `SearchEngine`: scope resolution, the directory walk, ranking and truncation, and the search flags. |
| `Indexer` | file_indexer.dfy | Class `FileIndexer`: the path-to-record index, its path set, the query, the start, stop, pause and resume flags, and the scan loop. |
| `Window` | main_window.dfy | Class `MainWindow`: the navigation history with its cursor and buttons, and the search-mode flag. |
| `FsModel` | file_system_model.dfy | The permission string, the hidden and system predicates, item flags, and class `FileSystemModel` with its filter bits and memo caches. |
| `Preview` | preview_widget.dfy | File-size formatting, preview classification, the truncating text read, and class `PreviewWidget` with its two caches. |
| `StatusBar` | status_bar_widget.dfy | The count text, path shortening, and class `StatusBarWidget`. |
| `Advanced` | advanced_search.dfy | The advanced search form: the file-type combo and the comma-separated exclude patterns. |
| `MacOS` | macos_integration.dfy | The monitored-path list, the feature flags, the Spotlight caches and parsing of `mdfind` output. |
| `SimpleExplorer` | main_simple.dfy | The simple explorer's name filter, file and folder counting, and its status line. |

Operations that loop in the source are methods with loop invariants. Each is proved
equal to a specification function: `CalculateFuzzyScore`, `MatchesFilters`,
`CaptureMatchedLines`, `SearchInDirectory`, `ScanFiles`, `ReadTextPreview`,
`ParseSpotlightOutput` and `CountEntries`. The properties the source promises are then
proved as lemmas about those functions. `SearchIndex` loops too, but over a QHash, whose
iteration order is unspecified. It is therefore specified by relations rather than by a
function: at most 1000 results, each an indexed record that matches, no record twice,
and every matching record present when fewer than 1000 are returned.

Some behaviours of the code are easy to misread; the model keeps each as the code has it:
- The code ranks with `std::sort` in `rankResults`, so equal scores come out in no
  promised order. Only "non-increasing and a permutation" is proved.
- The code scores two strings that differ at every common position as 0, whatever
  their lengths, because the distance is then the longer length.
- The code returns at most one result for a negative `maxResults`: the walk stops after
  the first hit, and `QList::mid` with a negative length keeps everything.
- The code emits `searchCompleted` even for a cancelled search.
- The code's `loadPreview` checks `exists` and `isReadable`, not `isFile`. A readable
  directory is therefore dispatched by its suffix like a file: an image or text suffix
  starts that load, which then fails, and any other suffix gets the "no preview"
  dispatch. `isPreviewSupported` rejects every directory.

## Model

| member | source | states |
|---|---|---|
| SearchTypes.DefaultCriteria | src/SearchEngine.h:81-99 | A default criteria has type FileNameSearch and scope CurrentDirectory, both size bounds 0, and invalid dates. Every option and filter flag is off except searchSubfolders. Limits are 10000 results, depth 100 and 30000 ms. |
| SearchTypes.DefaultResult | src/SearchEngine.h:116 | A default result has score 0.0, size 0, and empty path, name and matched lines. |
| Search.ResolveScope | src/SearchEngine.cpp:99-116 | CustomPath gives the custom path and EntireSystem gives "/". HomeDirectory gives the home path; both current-directory scopes give the current directory. |
| Search.QueryScope | src/SearchEngine.cpp:49-58 | search(query, basePath) picks CustomPath exactly when basePath is non-empty, so it searches basePath, or the current directory when basePath is empty. |
| Search.HelpersIgnoreBasePath | src/SearchEngine.cpp:512-586 | Every searchByX helper and fuzzySearch leaves the scope at its default, so the walk starts at the current directory whatever basePath is given. |
| Search.ExamineEntry | src/SearchEngine.cpp:132-216 | One step of the walk gives exactly the result the specification function assigns to the entry: filters, then the primary match, then the relevance score. |
| Search.HitSound | src/SearchEngine.cpp:132-216 | Every hit comes from an entry that passes the filters and matches the query, and carries that entry's path and relevance score. |
| Search.SizeRangeExcludes | src/SearchEngine.cpp:568-577 | A size-range search never reports a file above a positive maximum or below a positive minimum. |
| Search.InsertByScore | src/SearchEngine.cpp:430-437 | Inserting a result adds exactly that result to the multiset of results. |
| Search.InsertKeepsOrder | src/SearchEngine.cpp:430-437 | Inserting into a list ordered by non-increasing score keeps it ordered. |
| Search.SortByScore | src/SearchEngine.cpp:430-437 | Ranking gives a permutation of its input, ordered by non-increasing relevance score. |
| Search.Truncate | src/SearchEngine.cpp:122-126 | The kept results are a prefix of the ranked list, of length min(size, maxResults); a negative maxResults keeps all of them. |
| Search.RankTruncate | src/SearchEngine.cpp:118-127 | Ranked and truncated walk results are ordered and are all hits. There are at most maxResults of them, or at most one for a negative limit. Unless maxResults is 0 they are exactly the results found, reordered; for 0 there are none. |
| Search.SearchEngine.constructor | src/SearchEngine.cpp:15-40 | An engine starts idle and uncancelled with empty indexes, 10000 results, depth 100, a 30000 ms timeout and the ideal thread count. |
| Search.SearchEngine.CancelSearch | src/SearchEngine.cpp:82-88 | Cancelling sets the cancelled flag, clears the searching flag and emits searchCancelled. |
| Search.SearchEngine.Search | src/SearchEngine.cpp:60-80 | A new search cancels a running one (emitting searchCancelled), then marks the engine searching and uncancelled and emits searchStarted with the query. |
| Search.SearchEngine.SearchFor | src/SearchEngine.cpp:49-58 | search(query, basePath) behaves as search on the criteria built from the query. |
| Search.SearchEngine.SearchInDirectory | src/SearchEngine.cpp:132-216 | The walk returns the hits in walk order, cut off once it holds maxResults (one for a negative limit), and nothing once cancelled. It emits resultFound for each hit, in order. |
| Search.SearchEngine.PerformSearch | src/SearchEngine.cpp:95-130 | The results are ordered by non-increasing score and no more than maxResults (at most one for a negative limit). Each is a hit of the resolved scope. When the search is not cancelled and there are fewer hits than maxResults, they are all the hits. Unless maxResults is 0, the results are, up to order, the first hits up to the walk limit, or none after a cancellation; for 0 there are none. The count is recorded and searchCompleted is the last event. |
| Search.SearchEngine.OnSearchFinished | src/SearchEngine.cpp:494-498 | A finished search clears the searching flag and records the elapsed time. |
| Search.SearchEngine.ClearIndex | src/SearchEngine.cpp:628-634 | All three indexes are emptied and the index is no longer built. |
| SearchMatching.NameMatchPlainMode | src/SearchEngine.cpp:218-237 | Without regex or whole words, a name matches iff it contains the query after case normalisation. Case-insensitively, changing the letter case of the name or query does not change the answer. |
| SearchMatching.MatchesFilters | src/SearchEngine.cpp:298-350 | The filter check accepts exactly the entries the filter specification accepts. |
| SearchMatching.FilterMeaning | src/SearchEngine.cpp:300-347 | The size and date filters apply only when enabled. A size bound of 0 is open and both bounds are inclusive. An invalid date bound is open, and each valid one is inclusive. An empty type list passes every file. A file passes iff it passes the size, date and type filters and its name contains no exclude pattern, ignoring case. |
| SearchMatching.TypeFilterMeaning | src/SearchEngine.cpp:322-340 | For a category name, a file passes iff its lower-cased suffix is in that category's table. Any other type passes iff it equals the suffix ignoring case. |
| SearchMatching.FuzzyScore | src/SearchEngine.cpp:352-374 | The fuzzy score lies in [0, 1] and is 0 when either string is empty. |
| SearchMatching.CalculateFuzzyScore | src/SearchEngine.cpp:352-374 | The mismatch-counting loop computes the fuzzy score. |
| SearchMatching.FuzzyScoreEqualIgnoringCase | src/SearchEngine.cpp:352-374 | Strings equal up to letter case score exactly 1. |
| SearchMatching.FuzzyScoreDisjointPrefix | src/SearchEngine.cpp:352-374 | Strings that differ at every common position score exactly 0. |
| SearchMatching.FuzzyMatch | src/SearchEngine.cpp:376-379 | Case-equal non-empty strings match at any threshold up to 1. An empty string never matches a positive threshold. |
| SearchMatching.IsBinary | src/SearchEngine.cpp:381-393 | A file that cannot be opened counts as binary. One that opens is binary iff one of its first 1024 bytes is 0. |
| SearchMatching.CaptureMatchedLines | src/SearchEngine.cpp:273-284 | The capture loop returns the first ten of the trimmed lines that contain the query. |
| SearchMatching.CapturedLinesSound | src/SearchEngine.cpp:273-284 | At most ten lines are captured, and each is the trimmed form of a line containing the normalised query. |
| SearchMatching.MatchesContent | src/SearchEngine.cpp:239-288 | Content matching computes the content-match specification: the verdict and its captured lines. |
| SearchMatching.ContentMatchMeaning | src/SearchEngine.cpp:239-288 | Binary files are skipped unless binaries are included, and files that cannot be opened never match. At most ten lines are captured, and a non-match captures none. |
| SearchMatching.MatchTier | src/SearchEngine.cpp:402-417 | The tier is 100 iff the name equals the query, 75 iff it is a longer name starting with the query, and 50 iff it contains the query elsewhere. A name not containing the query gets a quarter of the fuzzy score, at most 25. |
| SearchMatching.RecencyBonus | src/SearchEngine.cpp:419-425 | The bonus is 10 iff modified under 7 days ago, 5 iff between 7 and 30 days, and 0 iff 30 days or more. |
| SearchMatching.RelevanceScore | src/SearchEngine.cpp:395-428 | A relevance score lies in [0, 110]. |
| SearchMatching.RelevanceTiersDominate | src/SearchEngine.cpp:395-428 | A name containing the query always outranks one that does not, whatever the ages. |
| SearchMatching.RelevanceTiersOrdered | src/SearchEngine.cpp:395-428 | At equal ages, the exact name outranks every other name, and a longer name starting with the query outranks every name that does not start with it. |
| Indexer.DefaultIndexedFile | src/FileIndexer.cpp:147-152 | The record returned for an unknown path is empty, with size 0 and an invalid time. |
| Indexer.CreateIndexedFile | src/FileIndexer.cpp:234-256 | A record carries its path, its file name and the entry's size. Its extension is the lower-cased suffix. |
| Indexer.ScanSnoc | src/FileIndexer.cpp:188-210 | Scanning one more file stores its record and emits fileIndexed, plus a progress event when the processed count reaches a multiple of 100. |
| Indexer.IndexAllKeys | src/FileIndexer.cpp:188-210 | After a scan, the index keys are the old keys plus the paths of the scanned files. |
| Indexer.ProgressInRange | src/FileIndexer.cpp:204-208 | While pass two has processed no more files than pass one counted, every progress value it emits lies in [0, 100]. |
| Indexer.DivBounds | src/FileIndexer.cpp:206 | The percentage (processed × 100) / total stays in [0, 100] while processed ≤ total. |
| Indexer.FileIndexer.constructor | src/FileIndexer.cpp:13-26 | An indexer starts empty, idle, unpaused, with zero counters and no events. |
| Indexer.FileIndexer.StartIndexing | src/FileIndexer.cpp:34-56 | Starting is a no-op while indexing. Otherwise it sets indexing, clears paused and zeroes the counters. It uses the home path when the path is empty and emits indexingStarted. |
| Indexer.FileIndexer.StopIndexing | src/FileIndexer.cpp:58-67 | Stopping clears the indexing flag and emits indexingStopped only if indexing was active. |
| Indexer.FileIndexer.PauseIndexing | src/FileIndexer.cpp:69-77 | Pausing sets the paused flag and emits indexingPaused only while indexing. |
| Indexer.FileIndexer.ResumeIndexing | src/FileIndexer.cpp:79-87 | Resuming clears the paused flag and emits indexingResumed only while indexing. |
| Indexer.FileIndexer.IndexFile | src/FileIndexer.cpp:218-232 | Indexing a file upserts its record, keeps the map keys equal to the path set, and emits fileIndexed. |
| Indexer.FileIndexer.UpdateIndex | src/FileIndexer.cpp:94-105 | An existing regular file is upserted with a fresh record. Anything else leaves index, paths and events unchanged. |
| Indexer.FileIndexer.RemoveFromIndex | src/FileIndexer.cpp:107-113 | Removal deletes the path from both the map and the path set, which stay equal. |
| Indexer.FileIndexer.ClearIndex | src/FileIndexer.cpp:115-121 | Clearing empties both the map and the path set. |
| Indexer.FileIndexer.SearchIndex | src/FileIndexer.cpp:123-145 | At most 1000 distinct records from the index, each of whose name, path or extension contains the query ignoring case. When fewer than 1000 come back, every matching record is among them. |
| Indexer.FileIndexer.GetIndexedFile | src/FileIndexer.cpp:147-152 | A known path gives its record; an unknown path gives the default record. |
| Indexer.FileIndexer.IsFileIndexed | src/FileIndexer.cpp:154-159 | A path is indexed iff it is in the path set (equivalently, a key of the map). |
| Indexer.FileIndexer.GetIndexedFileCount | src/FileIndexer.cpp:161-166 | The count is the size of the path set, equal to the number of records. |
| Indexer.FileIndexer.GetIndexedPaths | src/FileIndexer.cpp:168-173 | The returned list holds exactly the indexed paths, each once. |
| Indexer.FileIndexer.BeginScan | src/FileIndexer.cpp:181-186 | The first pass adds the number of files to the total, but only while indexing. |
| Indexer.FileIndexer.ScanOne | src/FileIndexer.cpp:200-209 | One loop iteration extends the index, the processed count and the events by exactly one scanned file. |
| Indexer.FileIndexer.ScanFiles | src/FileIndexer.cpp:188-210 | The second pass consumes every file while indexing and unpaused, and none otherwise. The index, the counter and the events become those of scanning the consumed files. |
| Indexer.FileIndexer.FinishScan | src/FileIndexer.cpp:212-215 | A final progress of 100 is emitted only if still indexing, then indexingCompleted always follows, even after a stop. |
| Window.Visit | src/MainWindow.cpp:564-574 | Adding to the history drops the entries after a valid cursor and appends the path. An invalid cursor only appends. |
| Window.MainWindow.constructor | src/MainWindow.cpp:51-78 | From an empty history with cursor -1 and search mode off, the window navigates to the home directory. The history is then exactly [home] with the cursor on it, and both buttons are disabled. |
| Window.MainWindow.AddToHistory | src/MainWindow.cpp:564-574 | The history becomes the visit of the path, and the cursor sits on its last entry. |
| Window.MainWindow.UpdateNavigationButtons | src/MainWindow.cpp:576-580 | Back is enabled iff the cursor is above 0; forward iff the cursor is before the last entry. |
| Window.MainWindow.NavigateToPath | src/MainWindow.cpp:543-562 | After navigating, the cursor is at the end and the last entry is the path. Forward is disabled, and back is enabled iff there is more than one entry. |
| Window.MainWindow.NavigateBack | src/MainWindow.cpp:433-441 | Back does nothing at cursor 0 or below. Otherwise it truncates at the cursor and re-appends the previous path, so the history has old-cursor + 1 entries and the cursor is at the end. |
| Window.MainWindow.NavigateForward | src/MainWindow.cpp:443-451 | Forward does nothing at the end of the history. Otherwise it navigates to the next entry, truncating what follows. |
| Window.MainWindow.OnSearchTextChanged | src/MainWindow.cpp:394-408 | Search mode is on iff the text is non-empty. |
| FsModel.PermissionString | src/FileSystemModel.cpp:207-228 | The permission string has 9 characters: r, w or x where granted and '-' otherwise, for owner, group and other in that order. |
| FsModel.ParsePermissions | src/FileSystemModel.cpp:207-228 | Reading a 9-character string grants exactly the positions that are not '-'. |
| FsModel.PermissionsRoundTrip | src/FileSystemModel.cpp:207-228 | Rendering a permission set and reading it back gives the same set. |
| FsModel.PermissionStringOfParse | src/FileSystemModel.cpp:207-228 | Reading a well-formed permission string and rendering it gives the same string. |
| FsModel.IsHiddenFile | src/FileSystemModel.cpp:430-434 | A file is hidden iff the platform marks it hidden or its name starts with '.'. |
| FsModel.IsSystemFile | src/FileSystemModel.cpp:436-443 | A system file (a dot name containing DS_Store, Spotlight or Trashes) is hidden whatever its hidden attribute. ".DS_Store", ".Trashes" and ".Spotlight-V100" are system files. |
| FsModel.ItemFlags | src/FileSystemModel.cpp:78-90 | A valid index is drag-enabled, and drop-enabled iff the base flags allow it or it is a directory. No other bit changes, and an invalid index keeps the base flags. |
| FsModel.ThumbnailKey | src/FileSystemModel.cpp:301-314 | A thumbnail key is the path followed by "_", so it is longer than the path. |
| FsModel.ThumbnailKeyIsNotPath | src/FileSystemModel.cpp:301-314 | A thumbnail key never equals the bare path. |
| FsModel.ThumbnailKeyRecognised | src/FileSystemModel.cpp:301-314 | Every key path + "_WxH" has the shape path, '_', a number, 'x', a number. |
| FsModel.RefreshKeepsThumbnails | src/FileSystemModel.cpp:196-205 | A refresh of a path keeps every cached thumbnail of that path. |
| FsModel.RemovePathThumbnails | src/FileSystemModel.cpp:196-205 | The intended eviction removes the path and every thumbnail key of it. Every other entry is kept with its pixmap, and nothing is added. |
| FsModel.FileSystemModel.constructor | src/FileSystemModel.cpp:12-20 | A model starts with empty caches, a cache size of 1000, thumbnails on, and hidden and system entries not shown. |
| FsModel.FileSystemModel.SetShowHidden | src/FileSystemModel.cpp:154-164 | Afterwards the hidden switch equals the argument and the Hidden bit follows it. No other filter bit changes, and an unchanged value leaves the filter alone. |
| FsModel.FileSystemModel.SetShowSystemFiles | src/FileSystemModel.cpp:171-181 | Afterwards the system switch equals the argument and the System bit follows it. No other filter bit changes, and an unchanged value leaves the filter alone. |
| FsModel.FileSystemModel.GetFileIcon | src/FileSystemModel.cpp:260-272 | A cached icon is returned unchanged. Otherwise the generated icon is cached and returned, so a second call returns the same icon. |
| FsModel.FileSystemModel.GetThumbnail | src/FileSystemModel.cpp:301-314 | A thumbnail cached under path_WxH is returned unchanged. Otherwise the generated one is cached under that key and returned. |
| FsModel.FileSystemModel.RefreshIndex | src/FileSystemModel.cpp:196-205 | Refreshing removes only the bare-path key from each of the three caches. |
| FsModel.FileSystemModel.EnableThumbnails | src/FileSystemModel.cpp:288-294 | The flag follows the argument, and disabling empties the thumbnail cache. |
| FsModel.FileSystemModel.ClearCache | src/FileSystemModel.cpp:330-336 | All three caches are emptied. |
| FsModel.FileSystemModel.SetCacheSize | src/FileSystemModel.cpp:316-323 | The caches are cleared iff the metadata cache is larger than the new size; otherwise they are kept. |
| Preview.FormatFileSize | src/PreviewWidget.cpp:324-339 | The text is "N bytes" below 1024, and otherwise the size divided by 1024, 1024² or 1024³ followed by KB, MB or GB, by the largest unit that fits. |
| Preview.SizePartsMeaning | src/PreviewWidget.cpp:324-339 | The unit is GB, MB, KB or bytes by the thresholds 1024³, 1024² and 1024, and the number is the size divided down, truncated. KB and MB values lie in [1, 1023]. |
| Preview.FormatListsDisjoint | src/PreviewWidget.cpp:113-135 | No suffix is both an image format and a text format. |
| Preview.SupportedMeansPreviewed | src/PreviewWidget.cpp:113-177 | A file is preview-supported iff it exists, is a regular file, and has an image or text suffix. Only the info is shown iff the path is missing or unreadable. A readable regular file is preview-supported iff it gets an image or text preview, and image suffixes are checked before text suffixes. |
| Preview.ReadTextPreview | src/PreviewWidget.cpp:238-257 | The read loop produces the text-preview content, and bytesRead is the length of the lines read with their newlines. |
| Preview.JoinedPrefixLength | src/PreviewWidget.cpp:245-253 | Reading fewer lines never yields more text. |
| Preview.TakenUpTo | src/PreviewWidget.cpp:245-253 | The loop reads lines while under 1 MiB. If it stops before the end, the text read has reached 1 MiB. |
| Preview.TextPreviewMeaning | src/PreviewWidget.cpp:245-257 | A file under 1 MiB is shown whole. Otherwise the shortest run of lines reaching 1 MiB is shown, followed by the truncation marker. |
| Preview.PreviewWidget.constructor | src/PreviewWidget.cpp:15-30 | A preview starts with no file, empty caches and no text. |
| Preview.PreviewWidget.ClearPreview | src/PreviewWidget.cpp:95-111 | The current file is cleared, and a cache is emptied only when it has more than 50 entries, so each ends with at most 50. |
| Preview.PreviewWidget.SetFile | src/PreviewWidget.cpp:77-93 | Setting the current file is a no-op. Otherwise the text is cleared, a cache is emptied iff it held more than 50 entries and kept otherwise, and the new path becomes current. |
| Preview.PreviewWidget.LoadTextPreview | src/PreviewWidget.cpp:223-267 | A cached text is shown again. A file that cannot be opened emits "Cannot read text file". Otherwise the truncated preview is shown and cached, and previewLoaded is emitted. |
| Preview.PreviewWidget.LoadImagePreview | src/PreviewWidget.cpp:179-221 | A cached image is reused. An unreadable or undecodable image emits its error. A decoded image is cached, and previewLoaded is emitted. |
| Preview.PreviewWidget.LoadPreview | src/PreviewWidget.cpp:146-177 | The preview kind follows the classification, and a missing or unreadable path changes nothing. An image preview reuses the cached pixmap, or caches the decoded one, or reports its error. A text preview reuses the cached text, or shows and caches the bounded read, or reports its error. Only an image preview touches the image cache and only a text preview the text cache and the text. A file with no preview only emits previewLoaded. |
| StatusBar.CountText | src/StatusBarWidget.cpp:187-197 | "No items" is shown iff there are no files and no folders. |
| StatusBar.CountTextOpensWithCount | src/StatusBarWidget.cpp:187-197 | The text opens with "N file" when there are files, and with "M folder" when there are only folders. |
| StatusBar.CountedText | src/StatusBarWidget.cpp:187-197 | A count reads "N noun", with the noun in the plural iff N is not 1. |
| StatusBar.CountTextExact | src/StatusBarWidget.cpp:187-197 | The exact text: "N file(s)" with only files, "M folder(s)" with only folders, and "N file(s), M folder(s)" with both, each noun singular iff its count is 1. |
| StatusBar.CountTextPlural | src/StatusBarWidget.cpp:187-197 | The text ends in "s" iff the last count shown is not 1. |
| StatusBar.DisplayPath | src/StatusBarWidget.cpp:104-117 | A path of at most 60 characters is shown as is. A longer one is shown as "..." plus its last 57 characters, so the label never exceeds 60. |
| StatusBar.StatusBarWidget.constructor | src/StatusBarWidget.cpp:7-27 | The bar starts with zero counts, inactive, with its labels consistent with the counts. |
| StatusBar.StatusBarWidget.UpdateStatusText | src/StatusBarWidget.cpp:174-200 | The count label shows the count text. The selection label is visible iff the count is positive and reads "K selected"; hidden, it keeps its old text. |
| StatusBar.StatusBarWidget.SetFileCount | src/StatusBarWidget.cpp:91-96 | The counts are stored and the label shows their text. |
| StatusBar.StatusBarWidget.SetSelectedCount | src/StatusBarWidget.cpp:98-102 | The selection is stored and its label is visible iff it is positive. |
| StatusBar.StatusBarWidget.SetCurrentPath | src/StatusBarWidget.cpp:104-117 | The path is stored and shown shortened to at most 60 characters. |
| StatusBar.StatusBarWidget.SetIndexingProgress | src/StatusBarWidget.cpp:119-130 | Indexing becomes active, and completion is scheduled from 100 on. |
| StatusBar.StatusBarWidget.SetIndexingCompleted | src/StatusBarWidget.cpp:132-137 | Indexing becomes inactive. |
| StatusBar.StatusBarWidget.SetSearchProgress | src/StatusBarWidget.cpp:139-150 | Search becomes active, and completion is scheduled from 100 on. |
| StatusBar.StatusBarWidget.SetSearchCompleted | src/StatusBarWidget.cpp:152-156 | Search becomes inactive. |
| Advanced.FindText | src/AdvancedSearch.cpp:156-162 | The index is the first item equal to the text ignoring case, and -1 iff no item is. |
| Advanced.ParseExcludePatterns | src/AdvancedSearch.cpp:143-146 | No parsed pattern is empty or contains a comma, and empty text gives no patterns. |
| Advanced.ExcludePatternsRoundTrip | src/AdvancedSearch.cpp:164 | Patterns that are non-empty and comma-free survive joining with ',' and reading back unchanged. |
| Advanced.FileTypesMeaning | src/AdvancedSearch.cpp:138-141 | "All Files" gives no type. Any other item gives exactly its lower-cased text. |
| Advanced.FormTypesAreCategories | src/AdvancedSearch.cpp:138-141 | Every type the form reports names one of the search engine's file-type categories. |
| Advanced.AdvancedSearch.constructor | src/AdvancedSearch.cpp:12-66 | The form starts empty with "All Files" selected. |
| Advanced.AdvancedSearch.GetSearchParameters | src/AdvancedSearch.cpp:132-149 | Name and location are copied. The types are empty iff "All Files" is selected, otherwise the lower-cased item. The patterns are well formed and empty for empty text. |
| Advanced.AdvancedSearch.SetSearchParameters | src/AdvancedSearch.cpp:151-165 | The combo moves only when the first type matches an item. Well-formed patterns, and the type of a category item, read back unchanged. |
| Advanced.AdvancedSearch.ResetForm | src/AdvancedSearch.cpp:193-199 | After a reset the form reads back as empty parameters. |
| MacOS.ParseSpotlightOutput | src/MacOSIntegration.cpp:90-109 | The parsing loop, which stops at 100 results, computes the Spotlight result list. |
| MacOS.SpotlightResultsMeaning | src/MacOSIntegration.cpp:90-109 | At most 100 results. Each is a non-empty output line naming an existing file, with that file's name, size and time. With fewer than 100, every existing path is present. |
| MacOS.RemoveAll | src/MacOSIntegration.cpp:176-181 | Removal leaves no occurrence of the path and only paths from the list. |
| MacOS.RemoveAllCounts | src/MacOSIntegration.cpp:176-181 | Every other path keeps its number of occurrences, and the length drops by the occurrences removed. |
| MacOS.RemoveAllConcat | src/MacOSIntegration.cpp:176-181 | Removal distributes over concatenation, so the remaining paths keep their order. |
| MacOS.RemoveAllAbsent | src/MacOSIntegration.cpp:176-181 | Removing an absent path changes nothing. |
| MacOS.RemoveAllNoDuplicates | src/MacOSIntegration.cpp:176-181 | Removal keeps a duplicate-free list duplicate-free. |
| MacOS.MacOSIntegration.constructor | src/MacOSIntegration.cpp:11-26 | Everything starts disabled and empty except the Spotlight cache flag, which is on. |
| MacOS.MacOSIntegration.EnableSpotlightIntegration | src/MacOSIntegration.cpp:61-70 | isSpotlightEnabled then returns the argument. |
| MacOS.MacOSIntegration.EnableWorkspaceNotifications | src/MacOSIntegration.cpp:373-381 | isWorkspaceNotificationsEnabled then returns the argument. |
| MacOS.MacOSIntegration.EnableSpotlightCache | src/MacOSIntegration.cpp:402-410 | isSpotlightCacheEnabled then returns the argument. |
| MacOS.MacOSIntegration.ClearSpotlightCache | src/MacOSIntegration.cpp:412-418 | All three caches are emptied. |
| MacOS.MacOSIntegration.StartFileSystemMonitoring | src/MacOSIntegration.cpp:139-150 | The list is replaced by the given paths, monitoring is active and monitoringStarted is emitted. |
| MacOS.MacOSIntegration.StopFileSystemMonitoring | src/MacOSIntegration.cpp:151-160 | The list is cleared, monitoring is inactive and monitoringStopped is emitted. |
| MacOS.MacOSIntegration.AddPathToMonitor | src/MacOSIntegration.cpp:167-174 | Only an absent path is appended, so the list stays duplicate-free. |
| MacOS.MacOSIntegration.RemovePathFromMonitor | src/MacOSIntegration.cpp:176-181 | Every occurrence of the path is removed, the others keep their order, and a duplicate-free list stays so. |
| MacOS.MacOSIntegration.SearchWithSpotlight | src/MacOSIntegration.cpp:72-88 | With Spotlight disabled, only the error is reported and nothing starts. Otherwise spotlightSearchStarted is emitted and the query is launched. |
| MacOS.MacOSIntegration.OnSpotlightFinished | src/MacOSIntegration.cpp:90-109 | Completion reports the parsed result list. |
| SimpleExplorer.NameFilterFor | src/main_simple.cpp:46-54 | Empty text gives no filter. Otherwise there is exactly one filter, '*' + text + '*'. |
| SimpleExplorer.CountsPartition | src/main_simple.cpp:200-209 | Every entry is counted exactly once, as a file or as a folder. |
| SimpleExplorer.CountEntries | src/main_simple.cpp:199-209 | The loop counts the folders and the files, and the two add up to the number of entries. |
| SimpleExplorer.StatusTextOpensWithFiles | src/main_simple.cpp:211-213 | The status line always opens with the file count and the word "file", zero included. |
| SimpleExplorer.StatusTextFilesPlural | src/main_simple.cpp:211-213 | "file" is followed by "s" iff the file count is not 1. |
| SimpleExplorer.StatusTextFoldersPlural | src/main_simple.cpp:211-213 | The line ends in ", D folder" for exactly one folder and in ", D folders" otherwise, D being the folder count. |
| SimpleExplorer.StatusTextExact | src/main_simple.cpp:211-213 | The exact line is "F file(s), D folder(s)", each noun singular iff its count is 1, zero included. |
| SimpleExplorer.SimpleFileExplorer.constructor | src/main_simple.cpp:31-43 | The window starts with no name filter and navigates to the home directory. It shows home and its counts when the model has an index for it; otherwise the path stays empty and the status reads "Ready". |
| SimpleExplorer.SimpleFileExplorer.OnSearchTextChanged | src/main_simple.cpp:46-54 | The filters become the name filter for the text, and rejected entries are hidden. |
| SimpleExplorer.SimpleFileExplorer.UpdateStatusBar | src/main_simple.cpp:197-215 | The status is the status line of the entries' file and folder counts, whose exact text StatusTextExact gives. |
| SimpleExplorer.SimpleFileExplorer.NavigateToPath | src/main_simple.cpp:185-195 | An invalid index changes nothing. A valid one shows the path and its counts. |

## Left out

- Concurrency. The QtConcurrent workers, QFutureWatcher, atomics, mutexes, timers and the msleep pause loop are left out; controllers are sequential. The indexer's pause wait therefore becomes "no file is consumed while paused".
- File-system and library I/O. QDirIterator, QFileInfo, QFile, QTextStream, QMimeDatabase, QStandardPaths and QImageReader are not modelled. They are replaced by abstract entries, byte and line sequences, an image-read outcome, and `home` and `current` paths passed as parameters.
- The walk. The directory walk is a function `Environment.walk` from a path and the walk options to an entry list. Hidden, system and symlink handling inside QDirIterator, and `searchSubfolders`, are therefore the walk's business.
- Regular expressions. `QRegularExpression` is an oracle (`RegexEngine`). Regex and whole-word matching are only as exact as that oracle.
- Text decoding. File contents are decoded one character per byte (`Entries.Decode`), so multi-byte UTF-8 sequences are not reassembled. The '\r' that QIODevice::Text strips from line ends is kept. The mdfind output arrives as an already decoded string parameter.
- Scores are exact `real` numbers, not IEEE doubles.
- Times are integer timestamps; `daysTo(now)` is an integer `ageDays` given with each entry.
- `toLower` is an ASCII case fold, not Unicode case folding.
- maxDepth, timeoutMs and threadCount are stored but never read by the walk, and searchProgress is never emitted. None of them is modelled.
- The stubs are not modelled: matchesMetadata (always false), searchByMetadata, saveSearch and the search history, getSearchSuggestions, buildIndex, SearchEngine's updateIndex and removeFromIndex, saveIndex, loadIndex and the unconnected onIndexingFinished.
- UI and platform. Widget construction, layouts, menus, style sheets, QSettings, dialogs and image scaling are not modelled. Neither are main.cpp, showFileInfo, the video, audio and document previews, Quick Look, Finder and Workspace natives, trash, extended attributes, and the mdfind process launch itself.
- SimpleExplorer.NameFilterFor: gives the shape of the wildcard pattern only. How QFileSystemModel matches that glob against names is not modelled.
- MacOS.MacOSIntegration.constructor: the metadata cache is never filled anywhere, so only its clearing is modelled.
- Advanced.AdvancedSearch.GetSearchParameters: covers name, location, file types and exclude patterns. The size, date, content and option fields of the form are not modelled.
- Indexer.ProgressInRange: integers are unbounded, so the 32-bit overflow of processed × 100 in the progress computation (above about 21.4 million files) is not modelled.
- Indexer.ProgressInRange: holds only while pass two processes no more files than pass one counted. The two QDirIterator passes are separate walks, so files created between them can push the report above 100 (150 counted and 200 visited report 133). That case is not excluded by the model, which takes the two passes' file lists as independent parameters.
- Indexer.FileIndexer.IndexFile: the exception branch (a warning and the indexingError signal) is not modelled. createIndexedFile only reads QFileInfo values, so the model treats it as never throwing.
- FsModel.FileSystemModel.RefreshIndex: the dataChanged signal it emits for the index is not modelled; the model has no view to notify.
- Preview.ReadTextPreview: bytesRead counts characters, not encoded bytes. The source's QString::length counts UTF-16 code units, so a character outside the Basic Multilingual Plane counts 2 there and 1 here. File contents are modelled one character per byte, so the 1 MiB threshold is measured in model characters.
- Search.SortByScore: promises only an order by non-increasing score and a permutation. The order of equal scores is left open, as std::sort leaves it.

## Findings

| source | as written | input that shows it | evidently intended | confidence | as-written member | corrected member |
|---|---|---|---|---|---|---|
| src/FileSystemModel.cpp:196-205 | refreshIndex removes `path` from the thumbnail cache, but getThumbnail stores thumbnails under `path + "_WxH"` (src/FileSystemModel.cpp:301-314), so no thumbnail of the refreshed path is evicted | getThumbnail("/a", 64×64) caches key "/a_64x64"; refreshIndex("/a") leaves "/a_64x64" in the cache | refreshing a path evicts every thumbnail cached for it | not executed | FsModel.RefreshKeepsThumbnails | FsModel.RemovePathThumbnails |

=== FILE: advanced_search.dfy ===
/** The advanced search form of AdvancedSearch.cpp: file name, location, the file-type
    combo box and the comma-separated exclude patterns, read into and written from a
    SearchParameters record. The size, date, content and option widgets are not part
    of this model. */
module Advanced {
  import opened Text
  import SearchMatching

  /** The entries of the file-type combo box, in order. */
  const FileTypeItems: seq<string> := ["All Files", "Images", "Documents", "Videos", "Audio", "Archives"]

  /** The part of AdvancedSearch::SearchParameters the form reads and writes. */
  datatype SearchParameters = SearchParameters(
    fileName: string,
    location: string,
    fileTypes: seq<string>,
    excludePatterns: seq<string>)

  /** Exclude patterns a form can hold without losing any: none empty, none with a comma. */
  predicate WellFormedPatterns(patterns: seq<string>)
  {
    forall k :: 0 <= k < |patterns| ==> patterns[k] != [] && ',' !in patterns[k]
  }

  /** QComboBox::findText with Qt::MatchFixedString: the first item equal to `text`
      ignoring case, or -1. */
  function FindText(items: seq<string>, text: string): (i: int)
    ensures -1 <= i < |items|
    ensures i >= 0 ==> Lower(items[i]) == Lower(text)
    ensures i >= 0 ==> forall j :: 0 <= j < i ==> Lower(items[j]) != Lower(text)
    ensures i == -1 <==> forall j :: 0 <= j < |items| ==> Lower(items[j]) != Lower(text)
  {
    if items == [] then -1
    else if Lower(items[0]) == Lower(text) then 0
    else
      var rest := FindText(items[1..], text);
      if rest == -1 then -1 else rest + 1
  }

  /** The file types getSearchParameters reports for the combo text shown. */
  function FileTypesOf(item: string): seq<string>
  {
    if item != "All Files" then [Lower(item)] else []
  }

  /** The exclude patterns getSearchParameters reads from the line edit. */
  function ParseExcludePatterns(text: string): (patterns: seq<string>)
    ensures WellFormedPatterns(patterns)
    ensures text == [] ==> patterns == []
  {
    SplitSkipEmptyParts(text, ',');
    if text != [] then SplitSkipEmpty(text, ',') else []
  }

  /** Writing well-formed patterns with join(",") and reading them back gives them
      unchanged. */
  lemma ExcludePatternsRoundTrip(patterns: seq<string>)
    requires WellFormedPatterns(patterns)
    ensures ParseExcludePatterns(Join(patterns, ',')) == patterns
  {
    JoinThenSplitSkipEmpty(patterns, ',');
  }

  /** Every combo item other than "All Files" gives exactly one lower-cased type. */
  lemma FileTypesMeaning(i: nat)
    requires i < |FileTypeItems|
    ensures FileTypesOf(FileTypeItems[i]) == [] <==> i == 0
    ensures i > 0 ==> FileTypesOf(FileTypeItems[i]) == [Lower(FileTypeItems[i])]
    ensures forall k :: 0 <= k < |FileTypesOf(FileTypeItems[i])| ==>
      Lower(FileTypesOf(FileTypeItems[i])[k]) == FileTypesOf(FileTypeItems[i])[k]
  {
    LowerIdempotent(FileTypeItems[i]);
  }

  /** The type the form reports for any item but "All Files" names one of the search
      engine's file-type categories, so it is looked up in that category's table. */
  lemma FormTypesAreCategories(i: nat)
    requires 0 < i < |FileTypeItems|
    ensures FileTypesOf(FileTypeItems[i])[0] in SearchMatching.FileTypeExtensions
  {
    assert Lower("Images") == "images";
    assert Lower("Documents") == "documents";
    assert Lower("Videos") == "videos";
    assert Lower("Audio") == "audio";
    assert Lower("Archives") == "archives";
  }

  class AdvancedSearch {
    var fileName: string
    var location: string
    /** The current index of the file-type combo box. */
    var comboIndex: int
    var excludeText: string

    ghost predicate Valid()
      reads this
    {
      0 <= comboIndex < |FileTypeItems|
    }

    constructor ()
      ensures Valid()
      ensures fileName == [] && location == [] && comboIndex == 0 && excludeText == []
    {
      fileName, location := [], [];
      comboIndex := 0;
      excludeText := [];
    }

    /** getSearchParameters. */
    function GetSearchParameters(): (p: SearchParameters)
      requires Valid()
      reads this
      ensures p.fileName == fileName && p.location == location
      ensures p.fileTypes == [] <==> comboIndex == 0
      ensures comboIndex > 0 ==> p.fileTypes == [Lower(FileTypeItems[comboIndex])]
      ensures WellFormedPatterns(p.excludePatterns)
      ensures excludeText == [] ==> p.excludePatterns == []
    {
      FileTypesMeaning(comboIndex);
      SearchParameters(fileName, location, FileTypesOf(FileTypeItems[comboIndex]),
        ParseExcludePatterns(excludeText))
    }

    /** setSearchParameters: name and location are copied, the combo moves to the item
        matching the first file type only if there is one, and the patterns are joined
        with ','. Reading back returns the patterns when they are well-formed, and the
        lower-cased first type when it names a category. */
    method SetSearchParameters(p: SearchParameters)
      requires Valid()
      modifies this
      ensures Valid()
      ensures fileName == p.fileName && location == p.location
      ensures excludeText == Join(p.excludePatterns, ',')
      ensures p.fileTypes == [] || FindText(FileTypeItems, p.fileTypes[0]) < 0 ==>
        comboIndex == old(comboIndex)
      ensures p.fileTypes != [] && FindText(FileTypeItems, p.fileTypes[0]) >= 0 ==>
        comboIndex == FindText(FileTypeItems, p.fileTypes[0])
      ensures WellFormedPatterns(p.excludePatterns) ==>
        GetSearchParameters().excludePatterns == p.excludePatterns
      ensures p.fileTypes != [] && FindText(FileTypeItems, p.fileTypes[0]) > 0 ==>
        GetSearchParameters().fileTypes == [Lower(p.fileTypes[0])]
    {
      fileName := p.fileName;
      location := p.location;
      if p.fileTypes != [] {
        var index := FindText(FileTypeItems, p.fileTypes[0]);
        if index >= 0 {
          comboIndex := index;
        }
      }
      excludeText := Join(p.excludePatterns, ',');
      if WellFormedPatterns(p.excludePatterns) {
        ExcludePatternsRoundTrip(p.excludePatterns);
      }
    }

    /** resetForm: every field is cleared and the combo shows "All Files", so the form
        reads back as empty parameters. */
    method ResetForm()
      modifies this
      ensures Valid()
      ensures fileName == [] && location == [] && comboIndex == 0 && excludeText == []
      ensures GetSearchParameters() == SearchParameters([], [], [], [])
    {
      fileName := [];
      location := [];
      comboIndex := 0;
      excludeText := [];
    }
  }
}

=== FILE: entries.dfy ===
/** The file system as the model sees it: instead of QFileInfo / QFile / QDirIterator,
    each entry is a record of what those classes would report for one path. */
module Entries {
  import opened Text

  newtype byte = x: int | 0 <= x < 256

  /** A QDateTime: either invalid (default-constructed) or a point in time, in seconds. */
  datatype Timestamp = Invalid | At(secs: int)

  /** What QFileInfo reports for an existing path, plus its bytes.
      `ageDays` is lastModified().daysTo(now); `isFile` and `readable` are
      QFileInfo::isFile and QFileInfo::isReadable, while `opens` says whether
      QFile::open succeeds; `directory` and `mimeType` come from QDir and QMimeDatabase. */
  datatype FileEntry = FileEntry(
    path: string,
    isDir: bool,
    isFile: bool,
    size: int,
    modified: int,
    accessed: Timestamp,
    created: Timestamp,
    ageDays: int,
    directory: string,
    mimeType: string,
    readable: bool,
    opens: bool,
    bytes: seq<byte>)
  {
    function Name(): string { FileName(path) }
  }

  /** The text QTextStream produces from the bytes, one character per byte. */
  function Decode(bytes: seq<byte>): (text: string)
    ensures |text| == |bytes|
  {
    seq(|bytes|, i requires 0 <= i < |bytes| => (bytes[i] as int) as char)
  }
}

=== FILE: file_indexer.dfy ===
/** The FileIndexer object of FileIndexer.cpp: a map from path to indexed record with a
    companion set of paths, the start / stop / pause / resume flags, the two-pass scan
    with its progress counter, and the capped substring query over the index.
    The worker thread is modelled as a sequence of steps on the same object: BeginScan
    (pass one, counting), ScanFiles (pass two, possibly several calls around a pause)
    and FinishScan (what the worker does after indexDirectory returns). */
module Indexer {
  import opened Text
  import opened Entries

  /** FileIndexer::IndexedFile, without the never-filled metadata hash. */
  datatype IndexedFile = IndexedFile(
    path: string,
    name: string,
    extension: string,
    mimeType: string,
    size: int,
    lastModified: Timestamp,
    lastAccessed: Timestamp,
    created: Timestamp,
    tags: seq<string>,
    comment: string)

  /** The value-initialised record QHash::value returns for an unknown key. */
  function DefaultIndexedFile(): (f: IndexedFile)
    ensures f.path == [] && f.name == [] && f.extension == [] && f.mimeType == []
    ensures f.size == 0 && f.lastModified == Invalid && f.tags == [] && f.comment == []
  {
    IndexedFile([], [], [], [], 0, Invalid, Invalid, Invalid, [], [])
  }

  /** createIndexedFile(path), given what QFileInfo / QMimeDatabase report for it.
      The stored extension is lower-cased. */
  function CreateIndexedFile(path: string, info: FileEntry): (f: IndexedFile)
    ensures f.path == path && f.name == FileName(path) && f.size == info.size
    ensures f.extension == Lower(Suffix(FileName(path))) && Lower(f.extension) == f.extension
  {
    LowerIdempotent(Suffix(FileName(path)));
    IndexedFile(path, FileName(path), Lower(Suffix(FileName(path))), info.mimeType, info.size,
                At(info.modified), info.accessed, info.created, [], [])
  }

  datatype IndexerEvent =
    | IndexingStarted
    | IndexingProgress(percentage: int)
    | IndexingCompleted
    | IndexingPaused
    | IndexingResumed
    | IndexingStopped
    | FileIndexed(file: IndexedFile)

  /** The percentage reported after `processed` of `total` files. */
  function Percent(processed: int, total: int): int
  {
    if total > 0 then (processed * 100) / total else 0
  }

  /** The index after indexFile has run on each of `files`, in order. */
  function IndexAll(index: map<string, IndexedFile>, files: seq<FileEntry>): map<string, IndexedFile>
  {
    if files == [] then index
    else
      var last := files[|files| - 1];
      IndexAll(index, files[..|files| - 1])[last.path := CreateIndexedFile(last.path, last)]
  }

  /** The signals pass two emits for `files` when `start` files were processed before:
      fileIndexed for each, and a progress report each time the count reaches a
      multiple of 100. */
  function ScanEvents(start: int, files: seq<FileEntry>, total: int): seq<IndexerEvent>
  {
    if files == [] then []
    else
      var n := start + |files|;
      var last := files[|files| - 1];
      ScanEvents(start, files[..|files| - 1], total) + [FileIndexed(CreateIndexedFile(last.path, last))] +
      (if n % 100 == 0 then [IndexingProgress(Percent(n, total))] else [])
  }

  /** Scanning one more file: the index and the signals of the longer prefix. */
  lemma ScanSnoc(index: map<string, IndexedFile>, start: int, files: seq<FileEntry>, k: nat, total: int,
                 prior: seq<IndexerEvent>)
    requires k < |files|
    ensures IndexAll(index, files[..k + 1]) ==
      IndexAll(index, files[..k])[files[k].path := CreateIndexedFile(files[k].path, files[k])]
    ensures prior + ScanEvents(start, files[..k + 1], total) ==
      prior + ScanEvents(start, files[..k], total) + [FileIndexed(CreateIndexedFile(files[k].path, files[k]))] +
      (if (start + k + 1) % 100 == 0 then [IndexingProgress(Percent(start + k + 1, total))] else [])
  {
    assert files[..k + 1][..k] == files[..k];
  }

  /** Every entry of the scanned list is a key of the resulting index, and keys that
      were there already stay. */
  lemma {:induction false} IndexAllKeys(index: map<string, IndexedFile>, files: seq<FileEntry>)
    ensures IndexAll(index, files).Keys == index.Keys + set e | e in files :: e.path
  {
    if files != [] {
      var init := files[..|files| - 1];
      IndexAllKeys(index, init);
      assert files == init + [files[|files| - 1]];
      assert (set e | e in files :: e.path) == (set e | e in init :: e.path) + {files[|files| - 1].path};
    }
  }

  /** A progress report never leaves 0..100 while no more files are processed than
      pass one counted. */
  lemma {:induction false} ProgressInRange(start: int, files: seq<FileEntry>, total: int)
    requires 0 <= start && start + |files| <= total
    ensures forall ev | ev in ScanEvents(start, files, total) && ev.IndexingProgress? ::
      0 <= ev.percentage <= 100
  {
    if files != [] {
      ProgressInRange(start, files[..|files| - 1], total);
      var n := start + |files|;
      assert 0 <= n * 100 <= total * 100;
      DivBounds(n * 100, total);
    }
  }

  lemma DivBounds(a: int, b: int)
    requires 0 <= a <= b * 100 && b > 0
    ensures 0 <= a / b <= 100
  {
  }

  /** Whether a record answers the (already lower-cased) query. */
  predicate IndexMatches(f: IndexedFile, lowerQuery: string)
  {
    Contains(Lower(f.name), lowerQuery) || Contains(Lower(f.path), lowerQuery) ||
    Contains(Lower(f.extension), lowerQuery)
  }

  const MaxIndexResults: nat := 1000

  class FileIndexer {
    var index: map<string, IndexedFile>
    var indexedPaths: set<string>
    var isIndexing: bool
    var isPaused: bool
    var basePath: string
    var totalFiles: int
    var processedFiles: int
    /** Signals emitted so far, in order. */
    var events: seq<IndexerEvent>

    /** The map's keys and the path set agree, every record is stored under its own
        path, and the counters are not negative. */
    ghost predicate Valid()
      reads this
    {
      index.Keys == indexedPaths &&
      (forall p | p in index :: index[p].path == p) &&
      totalFiles >= 0 && processedFiles >= 0
    }

    constructor ()
      ensures Valid()
      ensures index == map[] && indexedPaths == {} && !isIndexing && !isPaused
      ensures totalFiles == 0 && processedFiles == 0 && events == []
    {
      index, indexedPaths := map[], {};
      isIndexing, isPaused := false, false;
      basePath := [];
      totalFiles, processedFiles := 0, 0;
      events := [];
    }

    /** startIndexing: a no-op while a scan runs; otherwise arms a new scan of
        `path`, or of `home` when `path` is empty. */
    method StartIndexing(path: string, home: string)
      requires Valid()
      modifies this`basePath, this`isIndexing, this`isPaused, this`processedFiles,
               this`totalFiles, this`events
      ensures Valid()
      ensures old(isIndexing) ==> unchanged(this)
      ensures !old(isIndexing) ==>
        isIndexing && !isPaused && processedFiles == 0 && totalFiles == 0 &&
        basePath == (if path == [] then home else path) &&
        events == old(events) + [IndexingStarted]
    {
      if isIndexing {
        return;
      }
      basePath := if path == [] then home else path;
      isIndexing := true;
      isPaused := false;
      processedFiles := 0;
      totalFiles := 0;
      events := events + [IndexingStarted];
    }

    /** stopIndexing. */
    method StopIndexing()
      modifies this`isIndexing, this`events
      ensures !isIndexing
      ensures events == old(events) + (if old(isIndexing) then [IndexingStopped] else [])
    {
      if !isIndexing {
        return;
      }
      isIndexing := false;
      events := events + [IndexingStopped];
    }

    /** pauseIndexing. */
    method PauseIndexing()
      modifies this`isPaused, this`events
      ensures isPaused == (old(isPaused) || isIndexing)
      ensures events == old(events) + (if isIndexing then [IndexingPaused] else [])
    {
      if !isIndexing {
        return;
      }
      isPaused := true;
      events := events + [IndexingPaused];
    }

    /** resumeIndexing. */
    method ResumeIndexing()
      modifies this`isPaused, this`events
      ensures isPaused == (old(isPaused) && !isIndexing)
      ensures events == old(events) + (if isIndexing then [IndexingResumed] else [])
    {
      if !isIndexing {
        return;
      }
      isPaused := false;
      events := events + [IndexingResumed];
    }

    /** indexFile: (re)indexes one path from what QFileInfo reports for it. */
    method IndexFile(path: string, info: FileEntry)
      requires Valid()
      modifies this`index, this`indexedPaths, this`events
      ensures Valid()
      ensures index == old(index)[path := CreateIndexedFile(path, info)]
      ensures events == old(events) + [FileIndexed(CreateIndexedFile(path, info))]
    {
      var file := CreateIndexedFile(path, info);
      index := index[path := file];
      indexedPaths := indexedPaths + {path};
      events := events + [FileIndexed(file)];
    }

    /** updateIndex: `info` is what QFileInfo(path) reports, None when nothing exists
        there. Only an existing regular file is (re)indexed; otherwise nothing changes. */
    method UpdateIndex(path: string, info: Option<FileEntry>)
      requires Valid()
      modifies this`index, this`indexedPaths, this`events
      ensures Valid()
      ensures info.Some? && info.value.isFile ==>
        index == old(index)[path := CreateIndexedFile(path, info.value)] &&
        events == old(events) + [FileIndexed(CreateIndexedFile(path, info.value))]
      ensures !(info.Some? && info.value.isFile) ==>
        index == old(index) && indexedPaths == old(indexedPaths) && events == old(events)
    {
      if info.Some? && info.value.isFile {
        IndexFile(path, info.value);
      }
    }

    /** removeFromIndex. */
    method RemoveFromIndex(path: string)
      requires Valid()
      modifies this`index, this`indexedPaths
      ensures Valid()
      ensures index == old(index) - {path}
      ensures path !in indexedPaths
    {
      index := index - {path};
      indexedPaths := indexedPaths - {path};
    }

    /** clearIndex. */
    method ClearIndex()
      requires Valid()
      modifies this`index, this`indexedPaths
      ensures Valid()
      ensures index == map[] && indexedPaths == {}
    {
      index := map[];
      indexedPaths := {};
    }

    /** searchIndex: walks the map in its (unspecified) hash order, collecting records
        whose lower-cased name, path or extension contains the lower-cased query, and
        stops at 1000 of them. Each record appears at most once; below the cap, every
        matching record is there. */
    method SearchIndex(query: string) returns (results: seq<IndexedFile>)
      requires Valid()
      ensures |results| <= MaxIndexResults
      ensures forall r | r in results ::
        (r.path in index && index[r.path] == r && IndexMatches(r, Lower(query)))
      ensures forall i, j | 0 <= i < j < |results| :: results[i].path != results[j].path
      ensures |results| < MaxIndexResults ==>
        forall p | p in index && IndexMatches(index[p], Lower(query)) :: index[p] in results
    {
      var lowerQuery := Lower(query);
      results := [];
      var remaining := index.Keys;
      ghost var visited: set<string> := {};
      while remaining != {}
        invariant remaining !! visited && remaining + visited == index.Keys
        invariant |results| < MaxIndexResults
        invariant forall r | r in results ::
          (r.path in visited && index[r.path] == r && IndexMatches(r, lowerQuery))
        invariant forall i, j | 0 <= i < j < |results| :: results[i].path != results[j].path
        invariant forall p | p in visited && IndexMatches(index[p], lowerQuery) :: index[p] in results
        decreases remaining
      {
        var p :| p in remaining;
        var file := index[p];
        if IndexMatches(file, lowerQuery) {
          results := results + [file];
        }
        remaining := remaining - {p};
        visited := visited + {p};
        if |results| >= MaxIndexResults {
          break;
        }
      }
    }

    /** getIndexedFile: the stored record, or the default record for an unknown path. */
    function GetIndexedFile(path: string): (f: IndexedFile)
      reads this
      requires Valid()
      ensures path in index ==> f == index[path] && f.path == path
      ensures path !in index ==> f == DefaultIndexedFile()
    {
      if path in index then index[path] else DefaultIndexedFile()
    }

    /** isFileIndexed. */
    function IsFileIndexed(path: string): (b: bool)
      reads this
      requires Valid()
      ensures b <==> path in indexedPaths
    {
      path in index
    }

    /** getIndexedFileCount. */
    function GetIndexedFileCount(): (n: nat)
      reads this
      requires Valid()
      ensures n == |indexedPaths|
    {
      |index|
    }

    /** getIndexedPaths: every indexed path exactly once, in unspecified order. */
    method GetIndexedPaths() returns (paths: seq<string>)
      requires Valid()
      ensures (set p | p in paths) == index.Keys
      ensures |paths| == |index|
    {
      paths := [];
      var remaining := indexedPaths;
      while remaining != {}
        invariant remaining <= indexedPaths
        invariant (set p | p in paths) == indexedPaths - remaining
        invariant |paths| + |remaining| == |indexedPaths|
        decreases remaining
      {
        var p :| p in remaining;
        ghost var before := set q | q in paths;
        paths := paths + [p];
        assert (set q | q in paths) == before + {p};
        remaining := remaining - {p};
      }
    }

    /** Pass one of indexDirectory: nothing at all when no scan is armed; otherwise
        counts the files the iterator yields into totalFiles. */
    method BeginScan(files: seq<FileEntry>)
      requires Valid()
      modifies this`totalFiles
      ensures Valid()
      ensures totalFiles == old(totalFiles) + (if isIndexing then |files| else 0)
    {
      if !isIndexing {
        return;
      }
      var i := 0;
      while i < |files| && isIndexing
        invariant 0 <= i <= |files|
        invariant totalFiles == old(totalFiles) + i
      {
        totalFiles := totalFiles + 1;
        i := i + 1;
      }
    }

    /** One turn of pass two's loop over `files`, the k-th file: index it, count it,
        and report progress when the count reaches a multiple of 100. The ghost
        parameters are the state when the pass began. */
    method ScanOne(files: seq<FileEntry>, k: nat, ghost index0: map<string, IndexedFile>,
                   ghost processed0: int, ghost events0: seq<IndexerEvent>)
      requires Valid() && k < |files|
      requires index == IndexAll(index0, files[..k]) && processedFiles == processed0 + k
      requires events == events0 + ScanEvents(processed0, files[..k], totalFiles)
      modifies this`index, this`indexedPaths, this`processedFiles, this`events
      ensures Valid()
      ensures index == IndexAll(index0, files[..k + 1]) && processedFiles == processed0 + k + 1
      ensures events == events0 + ScanEvents(processed0, files[..k + 1], totalFiles)
    {
      ScanSnoc(index0, processed0, files, k, totalFiles, events0);
      var e := files[k];
      IndexFile(e.path, e);
      processedFiles := processedFiles + 1;
      if processedFiles % 100 == 0 {
        var progress := if totalFiles > 0 then (processedFiles * 100) / totalFiles else 0;
        events := events + [IndexingProgress(progress)];
      }
    }

    /** Pass two of indexDirectory over the files still to visit. A paused scan waits
        for resumeIndexing and a stopped one exits, so either consumes nothing here;
        a running scan indexes every file, counts it, and reports progress at every
        multiple of 100. Returns how many files were consumed. */
    method ScanFiles(files: seq<FileEntry>) returns (consumed: nat)
      requires Valid()
      modifies this`index, this`indexedPaths, this`processedFiles, this`events
      ensures Valid()
      ensures consumed == if isIndexing && !isPaused then |files| else 0
      ensures index == IndexAll(old(index), files[..consumed])
      ensures processedFiles == old(processedFiles) + consumed
      ensures events == old(events) + ScanEvents(old(processedFiles), files[..consumed], totalFiles)
    {
      consumed := 0;
      if !isIndexing || isPaused {
        assert files[..0] == [];
        return;
      }
      ghost var index0, processed0, events0 := index, processedFiles, events;
      while consumed < |files| && isIndexing
        invariant Valid() && isIndexing && !isPaused
        invariant 0 <= consumed <= |files|
        invariant index == IndexAll(index0, files[..consumed])
        invariant processedFiles == processed0 + consumed
        invariant events == events0 + ScanEvents(processed0, files[..consumed], totalFiles)
      {
        ScanOne(files, consumed, index0, processed0, events0);
        consumed := consumed + 1;
      }
    }

    /** The end of indexDirectory and of the worker: a final 100 when the scan was not
        stopped, then the flag is cleared and completion is reported in every case, so a
        stopped scan reports both stopped and completed. */
    method FinishScan()
      modifies this`isIndexing, this`events
      ensures !isIndexing
      ensures events == old(events) +
        (if old(isIndexing) then [IndexingProgress(100)] else []) + [IndexingCompleted]
    {
      if isIndexing {
        events := events + [IndexingProgress(100)];
      }
      isIndexing := false;
      events := events + [IndexingCompleted];
    }
  }
}

=== FILE: file_system_model.dfy ===
/** The FileSystemModel of FileSystemModel.cpp: the item flags it adds, the
    hidden / system filter switches, the nine-character permission string, the
    hidden and system file tests, and the memoising icon / thumbnail caches. */
module FsModel {
  import opened Text

  // ---------------------------------------------------------------- permissions

  /** The nine QFile::Permission flags getFilePermissions asks QFileInfo about. */
  datatype Permission =
    | ReadOwner | WriteOwner | ExeOwner
    | ReadGroup | WriteGroup | ExeGroup
    | ReadOther | WriteOther | ExeOther

  /** The order the string shows them in, and the letter each shows when granted. */
  const PermissionOrder: seq<Permission> :=
    [ReadOwner, WriteOwner, ExeOwner, ReadGroup, WriteGroup, ExeGroup, ReadOther, WriteOther, ExeOther]
  const PermissionLetters: string := "rwxrwxrwx"

  function Mark(granted: set<Permission>, p: Permission, letter: char): char
  {
    if p in granted then letter else '-'
  }

  /** getFilePermissions, given the permissions QFileInfo reports as granted: one
      character per permission, its letter when granted and '-' otherwise. */
  function PermissionString(granted: set<Permission>): (s: string)
    ensures |s| == 9
    ensures forall k | 0 <= k < 9 :: s[k] == Mark(granted, PermissionOrder[k], PermissionLetters[k])
  {
    [Mark(granted, ReadOwner, 'r'), Mark(granted, WriteOwner, 'w'), Mark(granted, ExeOwner, 'x'),
     Mark(granted, ReadGroup, 'r'), Mark(granted, WriteGroup, 'w'), Mark(granted, ExeGroup, 'x'),
     Mark(granted, ReadOther, 'r'), Mark(granted, WriteOther, 'w'), Mark(granted, ExeOther, 'x')]
  }

  /** The permissions a nine-character string shows (the inverse reading). */
  function ParsePermissions(s: string): (granted: set<Permission>)
    requires |s| == 9
    ensures forall k | 0 <= k < 9 :: PermissionOrder[k] in granted <==> s[k] != '-'
  {
    set k | 0 <= k < 9 && s[k] != '-' :: PermissionOrder[k]
  }

  /** A string getFilePermissions could have produced. */
  predicate WellFormedPermissions(s: string)
  {
    |s| == 9 && forall k | 0 <= k < 9 :: s[k] == PermissionLetters[k] || s[k] == '-'
  }

  /** Where a permission shows in the string. */
  function Position(p: Permission): (k: nat)
    ensures k < 9 && PermissionOrder[k] == p
  {
    match p
    case ReadOwner => 0 case WriteOwner => 1 case ExeOwner => 2
    case ReadGroup => 3 case WriteGroup => 4 case ExeGroup => 5
    case ReadOther => 6 case WriteOther => 7 case ExeOther => 8
  }

  /** The permission string shows exactly the granted permissions. */
  lemma PermissionsRoundTrip(granted: set<Permission>)
    ensures WellFormedPermissions(PermissionString(granted))
    ensures ParsePermissions(PermissionString(granted)) == granted
  {
    var s := PermissionString(granted);
    forall p: Permission ensures p in ParsePermissions(s) <==> p in granted {
      var k := Position(p);
      assert s[k] == Mark(granted, p, PermissionLetters[k]);
    }
  }

  /** Every well-formed string is the permission string of what it shows. */
  lemma PermissionStringOfParse(s: string)
    requires WellFormedPermissions(s)
    ensures PermissionString(ParsePermissions(s)) == s
  {
  }

  // ---------------------------------------------------------------- file tests

  /** isHiddenFile: the platform's hidden attribute, or a name starting with '.'. */
  function IsHiddenFile(path: string, hiddenAttribute: bool): (hidden: bool)
    ensures hidden <==> hiddenAttribute || (FileName(path) != [] && FileName(path)[0] == '.')
  {
    hiddenAttribute || StartsWith(FileName(path), ".")
  }

  /** isSystemFile: a dot-file whose name mentions one of the macOS system markers.
      A system file is hidden whatever its hidden attribute, and the Finder's own
      ".DS_Store", ".Trashes" and ".Spotlight-V100" are system files. */
  function IsSystemFile(path: string): (system: bool)
    ensures system ==> IsHiddenFile(path, false) && IsHiddenFile(path, true)
    ensures FileName(path) in {".DS_Store", ".Trashes", ".Spotlight-V100"} ==> system
  {
    var name := FileName(path);
    assert name == ".DS_Store" ==> StartsWith(name[1..], "DS_Store");
    assert name == ".Trashes" ==> StartsWith(name[1..], "Trashes");
    assert name == ".Spotlight-V100" ==> StartsWith(name[1..], "Spotlight");
    StartsWith(name, ".") &&
    (Contains(name, "DS_Store") || Contains(name, "Spotlight") || Contains(name, "Trashes"))
  }

  // ---------------------------------------------------------------- flags

  /** QDir::Filter bits for hidden and system entries. */
  const HiddenFilter: bv32 := 0x100
  const SystemFilter: bv32 := 0x200
  /** Qt::ItemFlag bits for drag and drop. */
  const DragEnabled: bv32 := 0x4
  const DropEnabled: bv32 := 0x8

  /** flags(index) on top of the base class flags `base`: a valid index becomes
      draggable, and a valid directory also accepts drops. */
  function ItemFlags(base: bv32, validIndex: bool, isDir: bool): (f: bv32)
    ensures validIndex ==> f & DragEnabled != 0
    ensures f & DropEnabled != 0 <==> base & DropEnabled != 0 || (validIndex && isDir)
    ensures f & !(DragEnabled | DropEnabled) == base & !(DragEnabled | DropEnabled)
    ensures !validIndex ==> f == base
  {
    if validIndex then
      var dragged := base | DragEnabled;
      if isDir then dragged | DropEnabled else dragged
    else base
  }

  // ---------------------------------------------------------------- caches

  /** The icon and pixmap values are opaque here: only their identity matters. */
  datatype Icon = Icon(id: int)
  datatype Pixmap = Pixmap(id: int)

  /** The thumbnail cache key: the path followed by "_WxH". */
  function ThumbnailKey(path: string, width: int, height: int): (key: string)
    ensures StartsWith(key, path + "_")
    ensures |key| >= |path| + 4
  {
    path + "_" + IntToString(width) + "x" + IntToString(height)
  }

  /** No thumbnail key equals a bare path, so removing the bare path leaves every
      thumbnail of that path in place. */
  lemma ThumbnailKeyIsNotPath(path: string, width: int, height: int)
    ensures ThumbnailKey(path, width, height) != path
  {
  }

  predicate SizeChar(c: char)
  {
    '0' <= c <= '9' || c == '-'
  }

  /** `key` is a thumbnail key of `path`: the path, '_', a number, 'x', a number. */
  predicate IsThumbnailKeyOf(key: string, path: string)
  {
    StartsWith(key, path + "_") &&
    var rest := key[|path| + 1..];
    'x' in rest &&
    var x := IndexOf(rest, 'x');
    x > 0 && x + 1 < |rest| &&
    (forall k | 0 <= k < |rest| && k != x :: SizeChar(rest[k]))
  }

  lemma NatDigits(n: nat)
    ensures forall k | 0 <= k < |NatToString(n)| :: SizeChar(NatToString(n)[k])
  {
  }

  lemma IntDigits(n: int)
    ensures |IntToString(n)| >= 1
    ensures forall k | 0 <= k < |IntToString(n)| :: SizeChar(IntToString(n)[k])
  {
    if n < 0 {
      NatDigits(-n);
      var s := IntToString(n);
      assert forall k | 1 <= k < |s| :: s[k] == NatToString(-n)[k - 1];
    } else {
      NatDigits(n);
    }
  }

  /** Every thumbnail key is recognised as belonging to its path. */
  lemma ThumbnailKeyRecognised(path: string, width: int, height: int)
    ensures IsThumbnailKeyOf(ThumbnailKey(path, width, height), path)
  {
    var key := ThumbnailKey(path, width, height);
    var w, h := IntToString(width), IntToString(height);
    IntDigits(width);
    IntDigits(height);
    var rest := key[|path| + 1..];
    assert rest == w + "x" + h;
    assert forall k | 0 <= k < |w| :: rest[k] == w[k];
    assert 'x' !in w;
    assert rest[|w|] == 'x';
    assert IndexOf(rest, 'x') == |w|;
    assert forall k | |w| < k < |rest| :: rest[k] == h[k - |w| - 1];
  }

  /** refreshIndex as written: removes the bare path from a cache. */
  function RemovePath<V>(cache: map<string, V>, path: string): map<string, V>
  {
    cache - {path}
  }

  /** refreshIndex as evidently intended for the thumbnail cache: removes the path
      and every thumbnail of it, and keeps every other entry. */
  function RemovePathThumbnails(cache: map<string, Pixmap>, path: string): (r: map<string, Pixmap>)
    ensures forall k | k in r :: k in cache && r[k] == cache[k]
    ensures path !in r
    ensures forall k | k in cache && k != path && !IsThumbnailKeyOf(k, path) :: k in r && r[k] == cache[k]
    ensures forall w: int, h: int {:trigger ThumbnailKey(path, w, h)} :: ThumbnailKey(path, w, h) !in r
  {
    var r := map k | k in cache && k != path && !IsThumbnailKeyOf(k, path) :: cache[k];
    assert forall w: int, h: int {:trigger ThumbnailKey(path, w, h)} :: ThumbnailKey(path, w, h) !in r by {
      forall w: int, h: int ensures ThumbnailKey(path, w, h) !in r {
        ThumbnailKeyRecognised(path, w, h);
      }
    }
    r
  }

  /** As written, a refresh keeps every cached thumbnail of the refreshed path. */
  lemma RefreshKeepsThumbnails(cache: map<string, Pixmap>, path: string, width: int, height: int)
    requires ThumbnailKey(path, width, height) in cache
    ensures ThumbnailKey(path, width, height) in RemovePath(cache, path)
  {
    ThumbnailKeyIsNotPath(path, width, height);
  }

  class FileSystemModel {
    /** The QDir::Filters the base model applies. */
    var filter: bv32
    var showHidden: bool
    var showSystemFiles: bool
    var thumbnailsEnabled: bool
    var cacheSize: int
    var metadataCache: map<string, string>
    var thumbnailCache: map<string, Pixmap>
    var iconCache: map<string, Icon>

    /** The hidden and system filter bits mirror the two switches. */
    ghost predicate Valid()
      reads this
    {
      (filter & HiddenFilter != 0 <==> showHidden) &&
      (filter & SystemFilter != 0 <==> showSystemFiles)
    }

    /** `baseFilter` is the base class's default filter, which shows neither hidden
        nor system entries. */
    constructor (baseFilter: bv32)
      requires baseFilter & (HiddenFilter | SystemFilter) == 0
      ensures Valid()
      ensures filter == baseFilter && !showHidden && !showSystemFiles && thumbnailsEnabled
      ensures cacheSize == 1000
      ensures metadataCache == map[] && thumbnailCache == map[] && iconCache == map[]
    {
      filter := baseFilter;
      showHidden, showSystemFiles, thumbnailsEnabled := false, false, true;
      cacheSize := 1000;
      metadataCache, thumbnailCache, iconCache := map[], map[], map[];
    }

    /** setShowHidden: touches the filter only when the switch changes; the hidden bit
        then follows the switch and no other bit moves. */
    method SetShowHidden(show: bool)
      requires Valid()
      modifies this`showHidden, this`filter
      ensures Valid()
      ensures showHidden == show
      ensures filter & !HiddenFilter == old(filter) & !HiddenFilter
      ensures old(showHidden) == show ==> filter == old(filter)
    {
      if showHidden != show {
        showHidden := show;
        if show {
          filter := filter | HiddenFilter;
        } else {
          filter := filter & !HiddenFilter;
        }
      }
    }

    /** setShowSystemFiles: the same for the system bit. */
    method SetShowSystemFiles(show: bool)
      requires Valid()
      modifies this`showSystemFiles, this`filter
      ensures Valid()
      ensures showSystemFiles == show
      ensures filter & !SystemFilter == old(filter) & !SystemFilter
      ensures old(showSystemFiles) == show ==> filter == old(filter)
    {
      if showSystemFiles != show {
        showSystemFiles := show;
        if show {
          filter := filter | SystemFilter;
        } else {
          filter := filter & !SystemFilter;
        }
      }
    }

    /** getFileIcon: memoised on the path; `generate` stands for generateFileIcon. */
    method GetFileIcon(path: string, generate: string -> Icon) returns (icon: Icon)
      modifies this`iconCache
      ensures path in old(iconCache) ==> icon == old(iconCache)[path] && iconCache == old(iconCache)
      ensures path !in old(iconCache) ==> icon == generate(path) && iconCache == old(iconCache)[path := icon]
      ensures path in iconCache && iconCache[path] == icon
    {
      if path in iconCache {
        return iconCache[path];
      }
      icon := generate(path);
      iconCache := iconCache[path := icon];
    }

    /** getThumbnail: memoised on path + "_WxH"; `generate` stands for generateThumbnail. */
    method GetThumbnail(path: string, width: int, height: int, generate: (string, int, int) -> Pixmap)
      returns (thumbnail: Pixmap)
      modifies this`thumbnailCache
      ensures ThumbnailKey(path, width, height) in old(thumbnailCache) ==>
        thumbnail == old(thumbnailCache)[ThumbnailKey(path, width, height)] &&
        thumbnailCache == old(thumbnailCache)
      ensures ThumbnailKey(path, width, height) !in old(thumbnailCache) ==>
        thumbnail == generate(path, width, height) &&
        thumbnailCache == old(thumbnailCache)[ThumbnailKey(path, width, height) := thumbnail]
      ensures thumbnailCache[ThumbnailKey(path, width, height)] == thumbnail
    {
      var key := ThumbnailKey(path, width, height);
      if key in thumbnailCache {
        return thumbnailCache[key];
      }
      thumbnail := generate(path, width, height);
      thumbnailCache := thumbnailCache[key := thumbnail];
    }

    /** refreshIndex for a valid index at `path`, as written: drops the bare path from
        the three caches, which leaves the path's thumbnails cached. */
    method RefreshIndex(path: string)
      modifies this`metadataCache, this`thumbnailCache, this`iconCache
      ensures metadataCache == RemovePath(old(metadataCache), path)
      ensures thumbnailCache == RemovePath(old(thumbnailCache), path)
      ensures iconCache == RemovePath(old(iconCache), path)
    {
      metadataCache := metadataCache - {path};
      thumbnailCache := thumbnailCache - {path};
      iconCache := iconCache - {path};
    }

    /** enableThumbnails. */
    method EnableThumbnails(enable: bool)
      modifies this`thumbnailsEnabled, this`thumbnailCache
      ensures thumbnailsEnabled == enable
      ensures thumbnailCache == if enable then old(thumbnailCache) else map[]
    {
      thumbnailsEnabled := enable;
      if !enable {
        thumbnailCache := map[];
      }
    }

    /** clearCache. */
    method ClearCache()
      modifies this`metadataCache, this`thumbnailCache, this`iconCache
      ensures metadataCache == map[] && thumbnailCache == map[] && iconCache == map[]
    {
      metadataCache, thumbnailCache, iconCache := map[], map[], map[];
    }

    /** setCacheSize: the caches are emptied exactly when the metadata cache holds more
        entries than the new size. */
    method SetCacheSize(size: int)
      modifies this`cacheSize, this`metadataCache, this`thumbnailCache, this`iconCache
      ensures cacheSize == size
      ensures |old(metadataCache)| > size ==>
        metadataCache == map[] && thumbnailCache == map[] && iconCache == map[]
      ensures |old(metadataCache)| <= size ==>
        metadataCache == old(metadataCache) && thumbnailCache == old(thumbnailCache) &&
        iconCache == old(iconCache)
    {
      cacheSize := size;
      if |metadataCache| > size {
        ClearCache();
      }
    }
  }
}

=== FILE: macos_integration.dfy ===
/** The platform-independent state of MacOSIntegration.cpp: the Spotlight, monitoring,
    workspace and cache switches, the list of monitored paths, the three caches, and
    the parsing of `mdfind` output into Spotlight results. Launching `mdfind` and the
    native Quick Look, Finder and FSEvents calls are not part of this model. */
module MacOS {
  import opened Text
  import opened Entries

  /** One Spotlight hit: the path and what QFileInfo reports for it. */
  datatype SpotlightResult = SpotlightResult(
    path: string,
    displayName: string,
    size: int,
    dateModified: int,
    dateCreated: Timestamp)

  /** The signals the object emits, in order. */
  datatype MacEvent =
    | SpotlightSearchStarted(query: string)
    | SpotlightSearchCompleted(results: seq<SpotlightResult>)
    | SpotlightSearchError(message: string)
    | MonitoringStarted
    | MonitoringStopped

  const MaxSpotlightResults: nat := 100
  const SpotlightDisabledMessage: string := "Spotlight integration is not enabled"

  // ---------------------------------------------------------------- mdfind output

  /** The result for one output line: present when the path exists (`stat` stands for
      QFileInfo and gives None for a missing path). */
  function ResultOf(stat: string -> Option<FileEntry>, path: string): Option<SpotlightResult>
  {
    match stat(path)
    case None => None
    case Some(e) => Some(SpotlightResult(path, FileName(path), e.size, e.modified, e.created))
  }

  function Found(stat: string -> Option<FileEntry>): string -> Option<SpotlightResult>
  {
    path => ResultOf(stat, path)
  }

  /** The non-empty lines of the output. */
  function OutputLines(output: string): seq<string>
  {
    SplitSkipEmpty(output, '\n')
  }

  /** What the finished-process handler reports: the results for the existing paths,
      in output order, cut at 100. */
  function SpotlightResults(output: string, stat: string -> Option<FileEntry>): seq<SpotlightResult>
  {
    Take(Collect(OutputLines(output), Found(stat)), MaxSpotlightResults)
  }

  /** The result-parsing loop of searchWithSpotlight's completion handler. */
  method ParseSpotlightOutput(output: string, stat: string -> Option<FileEntry>)
    returns (results: seq<SpotlightResult>)
    ensures results == SpotlightResults(output, stat)
  {
    var paths := SplitSkipEmpty(output, '\n');
    results := [];
    var i := 0;
    while i < |paths|
      invariant 0 <= i <= |paths|
      invariant results == Collect(paths[..i], Found(stat))
      invariant |results| < MaxSpotlightResults
    {
      var r := ResultOf(stat, paths[i]);
      CollectSnoc(paths, i, Found(stat));
      if r.Some? {
        results := results + [r.value];
        if |results| >= MaxSpotlightResults {
          CollectPrefix(paths, i + 1, Found(stat));
          return;
        }
      }
      i := i + 1;
    }
    assert paths[..i] == paths;
  }

  /** At most 100 results; each one is an existing path named on its own non-empty
      output line, with that path's file name, size and dates; and when fewer than
      100 are reported, every existing path of the output is among them. */
  lemma {:induction false} SpotlightResultsMeaning(output: string, stat: string -> Option<FileEntry>)
    ensures |SpotlightResults(output, stat)| <= MaxSpotlightResults
    ensures forall r | r in SpotlightResults(output, stat) ::
      r.path in OutputLines(output) && r.path != [] && '\n' !in r.path &&
      stat(r.path).Some? && r.displayName == FileName(r.path) &&
      r.size == stat(r.path).value.size && r.dateModified == stat(r.path).value.modified
    ensures |SpotlightResults(output, stat)| < MaxSpotlightResults ==>
      forall p | p in OutputLines(output) && stat(p).Some? ::
        exists r | r in SpotlightResults(output, stat) :: r.path == p
  {
    var lines := OutputLines(output);
    var all := Collect(lines, Found(stat));
    var results := SpotlightResults(output, stat);
    SplitSkipEmptyParts(output, '\n');
    forall r | r in results
      ensures r.path in lines && r.path != [] && '\n' !in r.path &&
        stat(r.path).Some? && r.displayName == FileName(r.path) &&
        r.size == stat(r.path).value.size && r.dateModified == stat(r.path).value.modified
    {
      var j :| 0 <= j < |results| && results[j] == r;
      assert all[j] == r;
      CollectSound(lines, Found(stat), j);
    }
    if |results| < MaxSpotlightResults {
      assert results == all;
      forall p | p in lines && stat(p).Some?
        ensures exists r | r in results :: r.path == p
      {
        var i :| 0 <= i < |lines| && lines[i] == p;
        CollectComplete(lines, Found(stat), i);
        assert ResultOf(stat, p).value in results;
      }
    }
  }

  // ---------------------------------------------------------------- monitored paths

  predicate NoDuplicates(s: seq<string>)
  {
    forall i, j :: 0 <= i < j < |s| ==> s[i] != s[j]
  }

  /** QList::removeAll: the list without any occurrence of `x`. */
  function RemoveAll(s: seq<string>, x: string): (r: seq<string>)
    ensures x !in r
    ensures |r| <= |s|
    ensures forall y | y in r :: y in s
  {
    if s == [] then []
    else (if s[0] == x then [] else [s[0]]) + RemoveAll(s[1..], x)
  }

  /** Every other element keeps its number of occurrences, and `x` loses all of its. */
  lemma {:induction false} RemoveAllCounts(s: seq<string>, x: string)
    ensures forall y | y != x :: multiset(RemoveAll(s, x))[y] == multiset(s)[y]
    ensures |RemoveAll(s, x)| == |s| - multiset(s)[x]
  {
    if s != [] {
      assert s == [s[0]] + s[1..];
      RemoveAllCounts(s[1..], x);
    }
  }

  /** Removal works piecewise, so the remaining paths keep their relative order. */
  lemma {:induction false} RemoveAllConcat(a: seq<string>, b: seq<string>, x: string)
    ensures RemoveAll(a + b, x) == RemoveAll(a, x) + RemoveAll(b, x)
  {
    if a != [] {
      assert (a + b)[1..] == a[1..] + b;
      RemoveAllConcat(a[1..], b, x);
    } else {
      assert a + b == b;
    }
  }

  /** Removing an absent path changes nothing. */
  lemma {:induction false} RemoveAllAbsent(s: seq<string>, x: string)
    requires x !in s
    ensures RemoveAll(s, x) == s
  {
    if s != [] {
      RemoveAllAbsent(s[1..], x);
    }
  }

  /** A list without duplicates keeps none after a removal. */
  lemma {:induction false} RemoveAllNoDuplicates(s: seq<string>, x: string)
    requires NoDuplicates(s)
    ensures NoDuplicates(RemoveAll(s, x))
  {
    if s != [] {
      var t := s[1..];
      assert NoDuplicates(t) by {
        forall i, j | 0 <= i < j < |t| ensures t[i] != t[j] {
          assert t[i] == s[i + 1] && t[j] == s[j + 1];
        }
      }
      assert s[0] !in t by {
        forall k | 0 <= k < |t| ensures t[k] != s[0] {
          assert t[k] == s[k + 1];
        }
      }
      RemoveAllNoDuplicates(t, x);
      var r := RemoveAll(s, x);
      var rest := RemoveAll(t, x);
      if s[0] != x {
        forall i, j | 0 <= i < j < |r| ensures r[i] != r[j] {
          assert r[j] == rest[j - 1];
          if i > 0 {
            assert r[i] == rest[i - 1];
          } else {
            assert rest[j - 1] in rest;
          }
        }
      }
    }
  }

  class MacOSIntegration {
    var spotlightEnabled: bool
    var monitoringActive: bool
    var workspaceNotificationsEnabled: bool
    var spotlightCacheEnabled: bool
    var monitoredPaths: seq<string>
    /** m_metadataCache, m_thumbnailCache and m_iconCache, keyed by path; pixmaps and
        icons are represented by identifiers. */
    var metadataCache: map<string, map<string, string>>
    var thumbnailCache: map<string, nat>
    var iconCache: map<string, nat>
    var events: seq<MacEvent>

    constructor ()
      ensures !spotlightEnabled && !monitoringActive && !workspaceNotificationsEnabled
      ensures spotlightCacheEnabled
      ensures monitoredPaths == [] && events == []
      ensures metadataCache == map[] && thumbnailCache == map[] && iconCache == map[]
    {
      spotlightEnabled := false;
      monitoringActive := false;
      workspaceNotificationsEnabled := false;
      spotlightCacheEnabled := true;
      monitoredPaths := [];
      metadataCache, thumbnailCache, iconCache := map[], map[], map[];
      events := [];
    }

    function IsSpotlightEnabled(): bool
      reads this
    {
      spotlightEnabled
    }

    function IsFileSystemMonitoringActive(): bool
      reads this
    {
      monitoringActive
    }

    function IsWorkspaceNotificationsEnabled(): bool
      reads this
    {
      workspaceNotificationsEnabled
    }

    function IsSpotlightCacheEnabled(): bool
      reads this
    {
      spotlightCacheEnabled
    }

    /** enableSpotlightIntegration. */
    method EnableSpotlightIntegration(enable: bool)
      modifies this`spotlightEnabled
      ensures IsSpotlightEnabled() == enable
    {
      spotlightEnabled := enable;
    }

    /** enableWorkspaceNotifications. */
    method EnableWorkspaceNotifications(enable: bool)
      modifies this`workspaceNotificationsEnabled
      ensures IsWorkspaceNotificationsEnabled() == enable
    {
      workspaceNotificationsEnabled := enable;
    }

    /** enableSpotlightCache. */
    method EnableSpotlightCache(enable: bool)
      modifies this`spotlightCacheEnabled
      ensures IsSpotlightCacheEnabled() == enable
    {
      spotlightCacheEnabled := enable;
    }

    /** clearSpotlightCache: all three caches are emptied. */
    method ClearSpotlightCache()
      modifies this`metadataCache, this`thumbnailCache, this`iconCache
      ensures metadataCache == map[] && thumbnailCache == map[] && iconCache == map[]
    {
      metadataCache := map[];
      thumbnailCache := map[];
      iconCache := map[];
    }

    /** startFileSystemMonitoring: the list is replaced and monitoring is on. */
    method StartFileSystemMonitoring(paths: seq<string>)
      modifies this`monitoredPaths, this`monitoringActive, this`events
      ensures monitoredPaths == paths && IsFileSystemMonitoringActive()
      ensures events == old(events) + [MonitoringStarted]
    {
      monitoredPaths := paths;
      monitoringActive := true;
      events := events + [MonitoringStarted];
    }

    /** stopFileSystemMonitoring: monitoring is off and the list is empty. */
    method StopFileSystemMonitoring()
      modifies this`monitoredPaths, this`monitoringActive, this`events
      ensures monitoredPaths == [] && !IsFileSystemMonitoringActive()
      ensures events == old(events) + [MonitoringStopped]
    {
      monitoringActive := false;
      monitoredPaths := [];
      events := events + [MonitoringStopped];
    }

    /** addPathToMonitor: the path is appended only when absent, so a list without
        duplicates stays without duplicates. */
    method AddPathToMonitor(path: string)
      modifies this`monitoredPaths
      ensures path in monitoredPaths
      ensures path in old(monitoredPaths) ==> monitoredPaths == old(monitoredPaths)
      ensures path !in old(monitoredPaths) ==> monitoredPaths == old(monitoredPaths) + [path]
      ensures NoDuplicates(old(monitoredPaths)) ==> NoDuplicates(monitoredPaths)
    {
      if path !in monitoredPaths {
        monitoredPaths := monitoredPaths + [path];
      }
    }

    /** removePathFromMonitor: every occurrence goes, the others stay in order. */
    method RemovePathFromMonitor(path: string)
      modifies this`monitoredPaths
      ensures monitoredPaths == RemoveAll(old(monitoredPaths), path)
      ensures path !in monitoredPaths
      ensures NoDuplicates(old(monitoredPaths)) ==> NoDuplicates(monitoredPaths)
    {
      if NoDuplicates(monitoredPaths) {
        RemoveAllNoDuplicates(monitoredPaths, path);
      }
      monitoredPaths := RemoveAll(monitoredPaths, path);
    }

    /** searchWithSpotlight: with Spotlight disabled only an error is reported and no
        search is launched; otherwise the search is announced and launched. */
    method SearchWithSpotlight(query: string) returns (launched: bool)
      modifies this`events
      ensures launched == spotlightEnabled
      ensures !spotlightEnabled ==> events == old(events) + [SpotlightSearchError(SpotlightDisabledMessage)]
      ensures spotlightEnabled ==> events == old(events) + [SpotlightSearchStarted(query)]
    {
      if !spotlightEnabled {
        events := events + [SpotlightSearchError(SpotlightDisabledMessage)];
        return false;
      }
      events := events + [SpotlightSearchStarted(query)];
      launched := true;
    }

    /** The handler run when the launched `mdfind` finishes with `output`. */
    method OnSpotlightFinished(output: string, stat: string -> Option<FileEntry>)
      modifies this`events
      ensures events == old(events) + [SpotlightSearchCompleted(SpotlightResults(output, stat))]
    {
      var results := ParseSpotlightOutput(output, stat);
      events := events + [SpotlightSearchCompleted(results)];
    }
  }
}

=== FILE: main_simple.dfy ===
/** The SimpleFileExplorer window of main_simple.cpp: the name filter built from the
    search text, navigation to a path the file model knows, and the status line that
    counts the files and folders of the current directory. The tree and list views,
    opening files and the Home / Up / Refresh buttons are not part of this model. */
module SimpleExplorer {
  import opened Text
  import opened Entries
  import StatusBar

  /** The name filters set for the search text: none for empty text, otherwise the one
      wildcard pattern "*text*". */
  function NameFilterFor(text: string): (filters: seq<string>)
    ensures |filters| <= 1
    ensures filters == [] <==> text == []
    ensures forall f | f in filters ::
      |f| == |text| + 2 && f[0] == '*' && f[|f| - 1] == '*' && f[1..|f| - 1] == text
  {
    if text == [] then [] else ["*" + text + "*"]
  }

  /** How many of the entries are folders (`dirs`) or files (`!dirs`). */
  function CountKind(entries: seq<FileEntry>, dirs: bool): nat
  {
    if entries == [] then 0
    else CountKind(entries[..|entries| - 1], dirs) + (if entries[|entries| - 1].isDir == dirs then 1 else 0)
  }

  /** Every entry is counted exactly once, as a file or as a folder. */
  lemma {:induction false} CountsPartition(entries: seq<FileEntry>)
    ensures CountKind(entries, true) + CountKind(entries, false) == |entries|
  {
    if entries != [] {
      CountsPartition(entries[..|entries| - 1]);
    }
  }

  lemma CountKindSnoc(entries: seq<FileEntry>, i: nat, dirs: bool)
    requires i < |entries|
    ensures CountKind(entries[..i + 1], dirs) ==
      CountKind(entries[..i], dirs) + (if entries[i].isDir == dirs then 1 else 0)
  {
    assert entries[..i + 1][..i] == entries[..i];
  }

  /** The counting loop of updateStatusBar. */
  method CountEntries(entries: seq<FileEntry>) returns (files: nat, folders: nat)
    ensures folders == CountKind(entries, true) && files == CountKind(entries, false)
    ensures files + folders == |entries|
  {
    files, folders := 0, 0;
    var i := 0;
    while i < |entries|
      invariant 0 <= i <= |entries|
      invariant folders == CountKind(entries[..i], true)
      invariant files == CountKind(entries[..i], false)
    {
      CountKindSnoc(entries, i, true);
      CountKindSnoc(entries, i, false);
      if entries[i].isDir {
        folders := folders + 1;
      } else {
        files := files + 1;
      }
      i := i + 1;
    }
    assert entries[..i] == entries;
    CountsPartition(entries);
  }

  /** The status line: "F file(s), D folder(s)", both counts always shown. */
  function StatusText(files: nat, folders: nat): string
  {
    StatusBar.Counted(files, "file") + ", " + StatusBar.Counted(folders, "folder")
  }

  /** The shape of a status line, with its pieces left uninterpreted. */
  lemma StatusShape(n: string, plural: string, rest: string)
    requires plural == "" || plural == "s"
    ensures var t := n + " " + "file" + plural + ", " + rest;
      StartsWith(t, n + " file") && |t| > |n + " file"| &&
      (t[|n + " file"|] == 's' <==> plural == "s")
  {
    var t := n + " " + "file" + plural + ", " + rest;
    var p := n + " file";
    assert t == p + (plural + ", " + rest);
    assert t[..|p|] == p;
  }

  /** The line always opens with the file count and the word "file". */
  lemma StatusTextOpensWithFiles(files: nat, folders: nat)
    ensures StartsWith(StatusText(files, folders), IntToString(files) + " file")
  {
    StatusShape(IntToString(files), if files == 1 then "" else "s", StatusBar.Counted(folders, "folder"));
  }

  /** "file" is followed by an "s" exactly when there is not exactly one file, zero
      included. */
  lemma StatusTextFilesPlural(files: nat, folders: nat)
    ensures var t := StatusText(files, folders);
      var p := |IntToString(files) + " file"|;
      |t| > p && (t[p] == 's' <==> files != 1)
  {
    StatusShape(IntToString(files), if files == 1 then "" else "s", StatusBar.Counted(folders, "folder"));
  }

  /** The line ends in ", D folder" for exactly one folder and in ", D folders"
      otherwise, D being the folder count. */
  lemma StatusTextFoldersPlural(files: nat, folders: nat)
    ensures var t := StatusText(files, folders);
      var tail := ", " + IntToString(folders) + (if folders == 1 then " folder" else " folders");
      |t| >= |tail| && t[|t| - |tail|..] == tail
  {
    var noun := if files == 1 then " file" else " files";
    var noun' := if folders == 1 then " folder" else " folders";
    var tail := ", " + IntToString(folders) + noun';
    var head := IntToString(files) + noun;
    StatusTextExact(files, folders);
    StatusBar.JoinCounts(IntToString(files), noun, ", ", IntToString(folders), noun');
    assert StatusText(files, folders) == head + tail;
    assert (head + tail)[|head|..] == tail;
  }

  /** The exact status line: "F file(s), D folder(s)", each noun singular exactly for
      a count of 1. */
  lemma StatusTextExact(files: nat, folders: nat)
    ensures StatusText(files, folders) ==
      IntToString(files) + (if files == 1 then " file" else " files") + ", " +
      IntToString(folders) + (if folders == 1 then " folder" else " folders")
  {
    assert " " + "file" == " file" && " " + "file" + "s" == " files";
    assert " " + "folder" == " folder" && " " + "folder" + "s" == " folders";
    StatusBar.CountedText(files, "file");
    StatusBar.CountedText(folders, "folder");
    StatusBar.JoinCounts(IntToString(files), if files == 1 then " file" else " files", ", ",
                         IntToString(folders), if folders == 1 then " folder" else " folders");
  }

  class SimpleFileExplorer {
    var nameFilters: seq<string>
    /** False: entries the filters reject are hidden, not shown disabled. */
    var nameFilterDisables: bool
    /** The path shown in the path field and used as the list view's root. */
    var currentPath: string
    var statusMessage: string

    /** The window opens on the home directory: `home` is the writable home location
        and `listing` what the file model holds for it (None when its index is
        invalid, which leaves the path empty and the status "Ready"). */
    constructor (home: string, listing: Option<seq<FileEntry>>)
      ensures nameFilters == [] && nameFilterDisables
      ensures listing.None? ==> currentPath == [] && statusMessage == "Ready"
      ensures listing.Some? ==> (currentPath == home &&
        statusMessage == StatusText(CountKind(listing.value, false), CountKind(listing.value, true)))
    {
      nameFilters := [];
      nameFilterDisables := true;
      currentPath := [];
      statusMessage := "Ready";
      new;
      NavigateToPath(home, listing);
    }

    /** onSearchTextChanged. */
    method OnSearchTextChanged(text: string)
      modifies this`nameFilters, this`nameFilterDisables
      ensures nameFilters == NameFilterFor(text) && !nameFilterDisables
    {
      if text == [] {
        nameFilters := [];
      } else {
        nameFilters := ["*" + text + "*"];
      }
      nameFilterDisables := false;
    }

    /** updateStatusBar over the entries of the directory. */
    method UpdateStatusBar(entries: seq<FileEntry>)
      modifies this`statusMessage
      ensures statusMessage == StatusText(CountKind(entries, false), CountKind(entries, true))
    {
      var files, folders := CountEntries(entries);
      statusMessage := StatusText(files, folders);
    }

    /** navigateToPath: `listing` is what the file model holds for the path, None when
        its index is invalid, in which case nothing changes. */
    method NavigateToPath(path: string, listing: Option<seq<FileEntry>>)
      modifies this`currentPath, this`statusMessage
      ensures listing.None? ==> currentPath == old(currentPath) && statusMessage == old(statusMessage)
      ensures listing.Some? ==> (currentPath == path &&
        statusMessage == StatusText(CountKind(listing.value, false), CountKind(listing.value, true)))
    {
      if listing.Some? {
        currentPath := path;
        UpdateStatusBar(listing.value);
      }
    }
  }
}

=== FILE: main_window.dfy ===
/** The navigation state of MainWindow.cpp: the current path, the back / forward
    history with its cursor, the enabled state of the two buttons, and search mode.
    Views, the file watcher and the status bar refresh are not part of this model. */
module Window {

  /** The history addToHistory leaves behind: everything after a valid cursor is
      dropped, then `path` is appended. */
  function Visit(history: seq<string>, cursor: int, path: string): (h: seq<string>)
    ensures |h| >= 1 && h[|h| - 1] == path
    ensures 0 <= cursor < |history| ==> |h| == cursor + 2 && h[..cursor + 1] == history[..cursor + 1]
    ensures !(0 <= cursor < |history|) ==> h == history + [path]
  {
    if 0 <= cursor < |history| then history[..cursor + 1] + [path] else history + [path]
  }

  class MainWindow {
    var currentPath: string
    var history: seq<string>
    var cursor: int
    var isSearchMode: bool
    var backEnabled: bool
    var forwardEnabled: bool

    /** The cursor is -1 or a position of the history, and the buttons show whether
        there is somewhere to go. */
    ghost predicate Valid()
      reads this
    {
      -1 <= cursor < |history| &&
      backEnabled == (cursor > 0) && forwardEnabled == (cursor < |history| - 1)
    }

    /** The cursor sits on the last history entry. */
    ghost predicate AtEnd()
      reads this
    {
      cursor == |history| - 1
    }

    /** The navigation part of the constructor: an empty history with cursor -1 and
        search mode off, then the first navigateToPath to the home directory, which is
        passed in because the standard-paths lookup is not modelled. */
    constructor (home: string)
      ensures Valid() && AtEnd()
      ensures history == [home] && cursor == 0 && currentPath == home && !isSearchMode
      ensures !backEnabled && !forwardEnabled
    {
      currentPath := [];
      history := [];
      cursor := -1;
      isSearchMode := false;
      backEnabled := false;
      forwardEnabled := false;
      new;
      NavigateToPath(home);
    }

    /** addToHistory. */
    method AddToHistory(path: string)
      modifies this`history, this`cursor
      ensures history == Visit(old(history), old(cursor), path)
      ensures cursor == |history| - 1
    {
      if 0 <= cursor < |history| {
        history := history[..cursor + 1];
      }
      history := history + [path];
      cursor := |history| - 1;
    }

    /** updateNavigationButtons. */
    method UpdateNavigationButtons()
      modifies this`backEnabled, this`forwardEnabled
      ensures backEnabled == (cursor > 0)
      ensures forwardEnabled == (cursor < |history| - 1)
    {
      backEnabled := cursor > 0;
      forwardEnabled := cursor < |history| - 1;
    }

    /** navigateToPath: the path becomes current and the last history entry, the cursor
        moves onto it, so forward is disabled afterwards. */
    method NavigateToPath(path: string)
      modifies this
      ensures Valid() && AtEnd()
      ensures history == Visit(old(history), old(cursor), path)
      ensures currentPath == path && history[|history| - 1] == path
      ensures !forwardEnabled && backEnabled == (|history| > 1)
      ensures isSearchMode == old(isSearchMode)
    {
      currentPath := path;
      AddToHistory(path);
      UpdateNavigationButtons();
    }

    /** onNavigateBack: acts only when the cursor is past the first entry. Since it goes
        through navigateToPath, the previous path is appended again after the entries up
        to the old cursor, and the cursor ends on it. */
    method NavigateBack()
      requires Valid()
      modifies this
      ensures Valid()
      ensures old(cursor) <= 0 ==> unchanged(this)
      ensures old(cursor) > 0 ==>
        AtEnd() && |history| == old(cursor) + 1 &&
        history == old(history)[..old(cursor)] + [old(history)[old(cursor) - 1]] &&
        currentPath == old(history)[old(cursor) - 1]
    {
      if cursor > 0 {
        cursor := cursor - 1;
        var path := history[cursor];
        NavigateToPath(path);
        UpdateNavigationButtons();
      }
    }

    /** onNavigateForward: acts only when the cursor is before the last entry, which
        never holds after a navigation, so from a state reached by navigating it
        changes nothing. */
    method NavigateForward()
      requires Valid()
      modifies this
      ensures Valid()
      ensures old(AtEnd()) ==> unchanged(this)
      ensures old(cursor) < old(|history|) - 1 ==>
        AtEnd() && history == old(history)[..old(cursor) + 2] + [old(history)[old(cursor) + 1]] &&
        currentPath == old(history)[old(cursor) + 1]
    {
      if cursor < |history| - 1 {
        cursor := cursor + 1;
        var path := history[cursor];
        NavigateToPath(path);
        UpdateNavigationButtons();
      }
    }

    /** onSearchTextChanged: search mode is on exactly when there is search text. */
    method OnSearchTextChanged(text: string)
      modifies this`isSearchMode
      ensures isSearchMode <==> text != []
    {
      if text == [] {
        isSearchMode := false;
      } else {
        isSearchMode := true;
      }
    }
  }
}

=== FILE: preview_widget.dfy ===
/** The PreviewWidget of PreviewWidget.cpp: which files it can preview and how it
    dispatches them, the bounded text read with its truncation marker, the
    human-readable file size, the current file and the two preview caches. */
module Preview {
  import opened Text
  import opened Entries

  // ---------------------------------------------------------------- file sizes

  const KiB: int := 1024
  const MiB: int := 1024 * 1024
  const GiB: int := 1024 * 1024 * 1024

  /** The number and unit formatFileSize prints. */
  function SizeParts(size: int): (r: (int, string))
  {
    if size >= GiB then (size / GiB, "GB")
    else if size >= MiB then (size / MiB, "MB")
    else if size >= KiB then (size / KiB, "KB")
    else (size, "bytes")
  }

  /** formatFileSize: the count of whole units, a space, and the largest unit that
      fits, by the thresholds 1024, 1024² and 1024³. */
  function FormatFileSize(size: int): (text: string)
    ensures size < KiB ==> text == IntToString(size) + " bytes"
    ensures KiB <= size < MiB ==> text == IntToString(size / KiB) + " KB"
    ensures MiB <= size < GiB ==> text == IntToString(size / MiB) + " MB"
    ensures GiB <= size ==> text == IntToString(size / GiB) + " GB"
  {
    var (n, unit) := SizeParts(size);
    IntToString(n) + " " + unit
  }

  function UnitSize(unit: string): int
  {
    if unit == "GB" then GiB else if unit == "MB" then MiB else if unit == "KB" then KiB else 1
  }

  /** The printed number is the count of whole units in the size (division truncates),
      the largest unit that fits is chosen, and for KB and MB the number lies in
      1..1023. */
  lemma SizePartsMeaning(size: int)
    ensures var (n, unit) := SizeParts(size);
      (size >= 0 ==> n * UnitSize(unit) <= size < (n + 1) * UnitSize(unit)) &&
      (unit == "GB" <==> size >= GiB) &&
      (unit == "MB" <==> MiB <= size < GiB) &&
      (unit == "KB" <==> KiB <= size < MiB) &&
      (unit == "bytes" <==> size < KiB) &&
      (unit in {"KB", "MB"} ==> 1 <= n <= 1023) &&
      (unit == "bytes" ==> n == size)
  {
  }

  // ---------------------------------------------------------------- supported files

  const ImageFormats: seq<string> := ["jpg", "jpeg", "png", "gif", "bmp", "tiff", "svg", "webp"]
  const TextFormats: seq<string> :=
    ["txt", "log", "cpp", "h", "hpp", "c", "cc", "cxx", "py", "js", "html", "htm", "css",
     "json", "xml", "md", "yaml", "yml"]

  /** The lower-cased suffix the widget switches on. */
  function PreviewSuffix(path: string): string
  {
    Lower(Suffix(FileName(path)))
  }

  /** isPreviewSupported: `info` is what QFileInfo(path) reports, None when nothing
      exists there. */
  predicate IsPreviewSupported(path: string, info: Option<FileEntry>)
  {
    if info.None? || !info.value.isFile then false
    else
      var suffix := PreviewSuffix(path);
      if suffix in ImageFormats then true
      else suffix in TextFormats
  }

  datatype PreviewKind = InfoOnly | ImagePreview | TextPreview | OtherFile

  /** The dispatch of loadPreview: info alone for a missing or unreadable file, then
      image suffixes, then text suffixes, otherwise just the info. */
  function PreviewKindOf(path: string, info: Option<FileEntry>): PreviewKind
  {
    if info.None? || !info.value.readable then InfoOnly
    else
      var suffix := PreviewSuffix(path);
      if suffix in ImageFormats then ImagePreview
      else if suffix in TextFormats then TextPreview
      else OtherFile
  }

  /** No suffix is both an image and a text suffix, so checking images first decides
      nothing by itself. */
  lemma FormatListsDisjoint()
    ensures forall s | s in ImageFormats :: s !in TextFormats
  {
  }

  /** isPreviewSupported accepts an existing regular file with an image or text
      suffix; loadPreview shows only the info of a missing or unreadable path, and for
      a readable regular file builds an image or text preview exactly when
      isPreviewSupported says it can. Image suffixes are checked before text ones. */
  lemma SupportedMeansPreviewed(path: string, info: Option<FileEntry>)
    ensures IsPreviewSupported(path, info) <==>
      info.Some? && info.value.isFile &&
      (PreviewSuffix(path) in ImageFormats || PreviewSuffix(path) in TextFormats)
    ensures PreviewKindOf(path, info) == InfoOnly <==> info.None? || !info.value.readable
    ensures info.Some? && info.value.isFile && info.value.readable ==>
      (IsPreviewSupported(path, info) <==> PreviewKindOf(path, info) in {ImagePreview, TextPreview})
    ensures PreviewKindOf(path, info) == TextPreview ==> PreviewSuffix(path) !in ImageFormats
  {
  }

  // ---------------------------------------------------------------- the text read

  /** loadTextPreview stops reading once it has taken 1 MiB. */
  const MaxPreviewChars: int := 1024 * 1024
  const TruncationMarker: string := "\n\n[File truncated - showing first 1MB]"

  /** The lines, each followed by a newline. */
  function Joined(lines: seq<string>): (text: string)
  {
    if lines == [] then ""
    else Joined(lines[..|lines| - 1]) + lines[|lines| - 1] + "\n"
  }

  /** How many lines the loop takes: it reads while lines remain and less than the
      limit has been taken. `taken` is the length taken before line `i`. */
  function LinesTakenFrom(lines: seq<string>, i: nat, taken: int): (k: nat)
    requires i <= |lines|
    ensures i <= k <= |lines|
    decreases |lines| - i
  {
    if i < |lines| && taken < MaxPreviewChars then LinesTakenFrom(lines, i + 1, taken + |lines[i]| + 1)
    else i
  }

  function LinesTaken(lines: seq<string>): nat
  {
    LinesTakenFrom(lines, 0, 0)
  }

  /** The text loadTextPreview shows for a file whose readLine results are `lines`. */
  function TextPreviewContent(lines: seq<string>): string
  {
    var body := Joined(lines[..LinesTaken(lines)]);
    if |body| >= MaxPreviewChars then body + TruncationMarker else body
  }

  lemma JoinedSnoc(lines: seq<string>, i: nat)
    requires i < |lines|
    ensures Joined(lines[..i + 1]) == Joined(lines[..i]) + lines[i] + "\n"
  {
    assert lines[..i + 1][..i] == lines[..i];
  }

  /** A prefix of the lines joins to no more text than all of them. */
  lemma {:induction false} JoinedPrefixLength(lines: seq<string>, k: nat)
    requires k <= |lines|
    ensures |Joined(lines[..k])| <= |Joined(lines)|
    decreases |lines| - k
  {
    if k < |lines| {
      JoinedSnoc(lines, k);
      JoinedPrefixLength(lines, k + 1);
    } else {
      assert lines[..k] == lines;
    }
  }

  /** The read loop: `bytesRead` is always the length of what was taken, the loop
      stops at the first moment it reaches the limit or runs out of lines, and the
      marker is added exactly when the limit was reached. */
  method ReadTextPreview(lines: seq<string>) returns (content: string, bytesRead: int)
    ensures content == TextPreviewContent(lines)
    ensures bytesRead == |Joined(lines[..LinesTaken(lines)])|
  {
    content := "";
    bytesRead := 0;
    var i := 0;
    while i < |lines| && bytesRead < MaxPreviewChars
      invariant 0 <= i <= |lines|
      invariant content == Joined(lines[..i])
      invariant bytesRead == |content|
      invariant LinesTakenFrom(lines, i, bytesRead) == LinesTaken(lines)
      decreases |lines| - i
    {
      var line := lines[i];
      JoinedSnoc(lines, i);
      content := content + line + "\n";
      bytesRead := bytesRead + |line| + 1;
      i := i + 1;
    }
    if bytesRead >= MaxPreviewChars {
      content := content + TruncationMarker;
    }
  }

  lemma {:induction false} TakenUpTo(lines: seq<string>, i: nat, taken: int)
    requires i <= |lines| && taken == |Joined(lines[..i])|
    requires forall j | 0 <= j < i :: |Joined(lines[..j])| < MaxPreviewChars
    ensures var k := LinesTakenFrom(lines, i, taken);
      (forall j | 0 <= j < k :: |Joined(lines[..j])| < MaxPreviewChars) &&
      (k < |lines| ==> |Joined(lines[..k])| >= MaxPreviewChars)
    decreases |lines| - i
  {
    if i < |lines| && taken < MaxPreviewChars {
      JoinedSnoc(lines, i);
      TakenUpTo(lines, i + 1, taken + |lines[i]| + 1);
    }
  }

  /** A file shorter than the limit is shown whole, without the marker; a longer one
      shows a prefix of its text that reaches the limit, followed by the marker, and
      no line past the one that crossed the limit is read. */
  lemma TextPreviewMeaning(lines: seq<string>)
    ensures |Joined(lines)| < MaxPreviewChars ==> TextPreviewContent(lines) == Joined(lines)
    ensures |Joined(lines)| >= MaxPreviewChars ==>
      var k := LinesTaken(lines);
      k >= 1 && |Joined(lines[..k])| >= MaxPreviewChars &&
      |Joined(lines[..k - 1])| < MaxPreviewChars &&
      TextPreviewContent(lines) == Joined(lines[..k]) + TruncationMarker
  {
    assert lines[..0] == [];
    TakenUpTo(lines, 0, 0);
    var k := LinesTaken(lines);
    if k == |lines| {
      assert lines[..k] == lines;
    }
    JoinedPrefixLength(lines, k);
    if |Joined(lines)| >= MaxPreviewChars {
      if k == |lines| {
        assert |Joined(lines[..k])| >= MaxPreviewChars;
      }
      assert |Joined(lines[..k])| >= MaxPreviewChars;
    }
  }

  // ---------------------------------------------------------------- the widget

  /** The pixmap values are opaque here: only their identity matters. */
  datatype Pixmap = Pixmap(id: int)

  /** What QImageReader makes of a file. */
  datatype ImageRead = CannotRead | ReadFailed | Decoded(pixmap: Pixmap)

  datatype PreviewEvent = PreviewLoaded(path: string) | PreviewError(message: string)

  const CacheLimit: nat := 50

  class PreviewWidget {
    var currentFile: string
    var imageCache: map<string, Pixmap>
    var textCache: map<string, string>
    /** The text shown in the text view. */
    var shownText: string
    /** Signals emitted so far, in order. */
    var events: seq<PreviewEvent>

    constructor ()
      ensures currentFile == [] && imageCache == map[] && textCache == map[]
      ensures shownText == [] && events == []
    {
      currentFile := [];
      imageCache, textCache := map[], map[];
      shownText := [];
      events := [];
    }

    /** clearPreview: forgets the current file; each cache is emptied only when it
        holds more than 50 previews, so afterwards neither holds more than 50. */
    method ClearPreview()
      modifies this`currentFile, this`imageCache, this`textCache, this`shownText
      ensures currentFile == [] && shownText == []
      ensures imageCache == if |old(imageCache)| > CacheLimit then map[] else old(imageCache)
      ensures textCache == if |old(textCache)| > CacheLimit then map[] else old(textCache)
      ensures |imageCache| <= CacheLimit && |textCache| <= CacheLimit
    {
      shownText := [];
      currentFile := [];
      if |imageCache| > CacheLimit {
        imageCache := map[];
      }
      if |textCache| > CacheLimit {
        textCache := map[];
      }
    }

    /** setFile: nothing happens for the current file; otherwise the preview is
        cleared (a cache holding more than 50 previews is emptied) and the path becomes
        current (its loading is scheduled on a timer). */
    method SetFile(path: string)
      modifies this`currentFile, this`imageCache, this`textCache, this`shownText
      ensures old(currentFile) == path ==> unchanged(this)
      ensures old(currentFile) != path ==>
        currentFile == path && shownText == [] &&
        imageCache == (if |old(imageCache)| > CacheLimit then map[] else old(imageCache)) &&
        textCache == (if |old(textCache)| > CacheLimit then map[] else old(textCache))
    {
      if currentFile == path {
        return;
      }
      ClearPreview();
      currentFile := path;
    }

    /** loadTextPreview: `file` holds the readLine results, None when the file cannot
        be opened. A cached text is shown without reading. */
    method LoadTextPreview(path: string, file: Option<seq<string>>)
      modifies this`textCache, this`shownText, this`events
      ensures path in old(textCache) ==>
        shownText == old(textCache)[path] && textCache == old(textCache) &&
        events == old(events) + [PreviewLoaded(path)]
      ensures path !in old(textCache) && file.None? ==>
        textCache == old(textCache) && shownText == old(shownText) &&
        events == old(events) + [PreviewError("Cannot read text file")]
      ensures path !in old(textCache) && file.Some? ==>
        shownText == TextPreviewContent(file.value) &&
        textCache == old(textCache)[path := shownText] &&
        events == old(events) + [PreviewLoaded(path)]
    {
      if path in textCache {
        shownText := textCache[path];
        events := events + [PreviewLoaded(path)];
        return;
      }
      if file.None? {
        events := events + [PreviewError("Cannot read text file")];
        return;
      }
      var content, _ := ReadTextPreview(file.value);
      textCache := textCache[path := content];
      shownText := content;
      events := events + [PreviewLoaded(path)];
    }

    /** loadImagePreview: a cached pixmap is shown without reading; otherwise the
        decoded image is cached, or an error is reported. */
    method LoadImagePreview(path: string, image: ImageRead)
      modifies this`imageCache, this`events
      ensures path in old(imageCache) ==>
        imageCache == old(imageCache) && events == old(events) + [PreviewLoaded(path)]
      ensures path !in old(imageCache) && image.CannotRead? ==>
        imageCache == old(imageCache) && events == old(events) + [PreviewError("Cannot read image file")]
      ensures path !in old(imageCache) && image.ReadFailed? ==>
        imageCache == old(imageCache) && events == old(events) + [PreviewError("Failed to load image")]
      ensures path !in old(imageCache) && image.Decoded? ==>
        imageCache == old(imageCache)[path := image.pixmap] &&
        events == old(events) + [PreviewLoaded(path)]
    {
      if path in imageCache {
        events := events + [PreviewLoaded(path)];
        return;
      }
      match image {
        case CannotRead =>
          events := events + [PreviewError("Cannot read image file")];
        case ReadFailed =>
          events := events + [PreviewError("Failed to load image")];
        case Decoded(pixmap) =>
          imageCache := imageCache[path := pixmap];
          events := events + [PreviewLoaded(path)];
      }
    }

    /** loadPreview: dispatches on the file as PreviewKindOf says; `image` is what
        QImageReader makes of an image file and `file` the readLine results of a
        text file (None when it cannot be opened). */
    method LoadPreview(path: string, info: Option<FileEntry>, image: ImageRead, file: Option<seq<string>>)
      returns (kind: PreviewKind)
      modifies this`imageCache, this`textCache, this`shownText, this`events
      ensures kind == PreviewKindOf(path, info)
      ensures kind == InfoOnly ==> unchanged(this)
      ensures kind == OtherFile ==>
        events == old(events) + [PreviewLoaded(path)] && imageCache == old(imageCache) &&
        textCache == old(textCache) && shownText == old(shownText)
      ensures kind != TextPreview ==> textCache == old(textCache)
      ensures kind != ImagePreview ==> imageCache == old(imageCache)
      // An image: the cached pixmap, or the decoded one newly cached, or an error.
      ensures kind == ImagePreview ==> shownText == old(shownText)
      ensures kind == ImagePreview && path in old(imageCache) ==>
        imageCache == old(imageCache) && events == old(events) + [PreviewLoaded(path)]
      ensures kind == ImagePreview && path !in old(imageCache) && image.CannotRead? ==>
        imageCache == old(imageCache) && events == old(events) + [PreviewError("Cannot read image file")]
      ensures kind == ImagePreview && path !in old(imageCache) && image.ReadFailed? ==>
        imageCache == old(imageCache) && events == old(events) + [PreviewError("Failed to load image")]
      ensures kind == ImagePreview && path !in old(imageCache) && image.Decoded? ==>
        imageCache == old(imageCache)[path := image.pixmap] &&
        events == old(events) + [PreviewLoaded(path)]
      // A text: the cached text, or the bounded read newly cached, or an error.
      ensures kind == TextPreview && path in old(textCache) ==>
        shownText == old(textCache)[path] && textCache == old(textCache) &&
        events == old(events) + [PreviewLoaded(path)]
      ensures kind == TextPreview && path !in old(textCache) && file.None? ==>
        textCache == old(textCache) && shownText == old(shownText) &&
        events == old(events) + [PreviewError("Cannot read text file")]
      ensures kind == TextPreview && path !in old(textCache) && file.Some? ==>
        shownText == TextPreviewContent(file.value) &&
        textCache == old(textCache)[path := shownText] &&
        events == old(events) + [PreviewLoaded(path)]
    {
      kind := PreviewKindOf(path, info);
      match kind {
        case InfoOnly =>
        case ImagePreview =>
          LoadImagePreview(path, image);
        case TextPreview =>
          LoadTextPreview(path, file);
        case OtherFile =>
          events := events + [PreviewLoaded(path)];
      }
    }
  }
}

=== FILE: search_engine.dfy ===
/** The SearchEngine object of SearchEngine.cpp: its search / cancel flags, scope
    resolution, the convenience searches that build criteria, the directory walk that
    collects scored hits, ranking by relevance and truncation to maxResults. */
module Search {
  import opened Text
  import opened Entries
  import opened SearchTypes
  import opened SearchMatching

  /** The QDirIterator flags a search asks for. */
  datatype WalkOptions = WalkOptions(subdirectories: bool, followSymlinks: bool, hidden: bool, system: bool)

  /** What a run sees of the outside world: QDir::currentPath(), the home location and
      the directory iterator (the entries it yields for a root and options). */
  datatype Environment = Environment(
    currentPath: string,
    homePath: string,
    walk: (string, WalkOptions) -> seq<FileEntry>)

  function WalkOptionsOf(c: SearchCriteria): WalkOptions
  {
    WalkOptions(c.searchSubfolders, c.followSymlinks, c.searchHiddenFiles, c.searchSystemFiles)
  }

  /** The scope switch of performSearch. */
  function ResolveScope(c: SearchCriteria, env: Environment): (path: string)
    ensures c.scope == CustomPath ==> path == c.customPath
    ensures c.scope == EntireSystem ==> path == "/"
    ensures c.scope == HomeDirectory ==> path == env.homePath
    ensures c.scope in {CurrentDirectory, CurrentDirectoryRecursive} ==> path == env.currentPath
  {
    match c.scope
    case CurrentDirectory => env.currentPath
    case HomeDirectory => env.homePath
    case CustomPath => c.customPath
    case EntireSystem => "/"
    case CurrentDirectoryRecursive => env.currentPath
  }

  // ---------------------------------------------------------------- criteria builders

  /** search(query, basePath): a file-name search, in basePath when one is given. */
  function QueryCriteria(query: string, basePath: string): (c: SearchCriteria)
  {
    DefaultCriteria().(query := query, searchType := FileNameSearch, customPath := basePath,
                       scope := if basePath == [] then CurrentDirectory else CustomPath)
  }

  /** The basePath of search(query, basePath) is searched iff it is non-empty; otherwise
      the current directory is. */
  lemma QueryScope(query: string, basePath: string, env: Environment)
    ensures QueryCriteria(query, basePath).scope == CustomPath <==> basePath != []
    ensures ResolveScope(QueryCriteria(query, basePath), env) ==
      if basePath == [] then env.currentPath else basePath
  {
  }

  /** searchByName. */
  function ByNameCriteria(pattern: string, basePath: string): SearchCriteria
  {
    DefaultCriteria().(query := pattern, searchType := FileNameSearch, customPath := basePath)
  }

  /** searchByContent. */
  function ByContentCriteria(text: string, basePath: string): SearchCriteria
  {
    DefaultCriteria().(query := text, searchType := ContentSearch, customPath := basePath)
  }

  /** searchByRegex, given the pattern text of the expression. */
  function ByRegexCriteria(pattern: string, basePath: string): SearchCriteria
  {
    DefaultCriteria().(query := pattern, searchType := RegexSearch, useRegex := true,
                       customPath := basePath)
  }

  /** fuzzySearch. */
  function FuzzyCriteria(query: string, basePath: string): SearchCriteria
  {
    DefaultCriteria().(query := query, searchType := FuzzySearch, fuzzyMatching := true,
                       customPath := basePath)
  }

  /** searchByDateRange. */
  function ByDateRangeCriteria(from: Timestamp, to: Timestamp, basePath: string): SearchCriteria
  {
    DefaultCriteria().(searchType := DateSearch, useDateFilter := true, dateFrom := from,
                       dateTo := to, customPath := basePath)
  }

  /** searchBySizeRange. */
  function BySizeRangeCriteria(minSize: int, maxSize: int, basePath: string): SearchCriteria
  {
    DefaultCriteria().(searchType := SizeSearch, useSizeFilter := true, minSize := minSize,
                       maxSize := maxSize, customPath := basePath)
  }

  /** searchByType. */
  function ByTypeCriteria(types: seq<string>, basePath: string): SearchCriteria
  {
    DefaultCriteria().(searchType := TypeSearch, fileTypes := types, customPath := basePath)
  }

  /** The convenience searches store basePath but leave the scope at CurrentDirectory,
      so the directory searched is the current one whatever basePath says. */
  lemma HelpersIgnoreBasePath(s: string, from: Timestamp, to: Timestamp, lo: int, hi: int,
                              types: seq<string>, basePath: string, env: Environment)
    ensures ResolveScope(ByNameCriteria(s, basePath), env) == env.currentPath
    ensures ResolveScope(ByContentCriteria(s, basePath), env) == env.currentPath
    ensures ResolveScope(ByRegexCriteria(s, basePath), env) == env.currentPath
    ensures ResolveScope(FuzzyCriteria(s, basePath), env) == env.currentPath
    ensures ResolveScope(ByDateRangeCriteria(from, to, basePath), env) == env.currentPath
    ensures ResolveScope(BySizeRangeCriteria(lo, hi, basePath), env) == env.currentPath
    ensures ResolveScope(ByTypeCriteria(types, basePath), env) == env.currentPath
  {
  }

  // ---------------------------------------------------------------- one entry

  /** The primary matcher chosen by criteria.type, with the lines it captured. */
  function PrimaryMatch(e: FileEntry, c: SearchCriteria, rx: RegexEngine): (bool, seq<string>)
  {
    match c.searchType
    case FileNameSearch => (MatchesFileName(e.Name(), c, rx), [])
    case ContentSearch => ContentMatch(e, c, rx)
    case MetadataSearch => (false, [])
    case FuzzySearch => (FuzzyMatch(c.query, e.Name()), [])
    case RegexSearch => (rx.hasMatch(c.query, e.Name()), [])
    case _ => (MatchesFileName(e.Name(), c, rx), [])
  }

  /** The result the walk appends for one entry, if any. */
  function ResultFor(e: FileEntry, c: SearchCriteria, rx: RegexEngine): Option<SearchResult>
  {
    if !PassesFilters(e, c) then None
    else
      var m := PrimaryMatch(e, c, rx);
      if !m.0 then None
      else Some(SearchResult(e.path, e.Name(), e.directory, e.mimeType,
                             RelevanceScore(e.Name(), e.ageDays, c), m.1, At(e.modified), e.size))
  }

  /** One pass of the walk's body: filters first, then the primary matcher. */
  method ExamineEntry(e: FileEntry, c: SearchCriteria, rx: RegexEngine) returns (r: Option<SearchResult>)
    ensures r == ResultFor(e, c, rx)
  {
    var passes := MatchesFilters(e, c);
    if !passes {
      return None;
    }
    var matches := false;
    var matchedLines: seq<string> := [];
    match c.searchType {
      case FileNameSearch =>
        matches := MatchesFileName(e.Name(), c, rx);
      case ContentSearch =>
        matches, matchedLines := MatchesContent(e, c, rx);
      case MetadataSearch =>
        matches := false;
      case FuzzySearch =>
        var score := CalculateFuzzyScore(c.query, e.Name());
        matches := score >= DefaultFuzzyThreshold;
      case RegexSearch =>
        matches := rx.hasMatch(c.query, e.Name());
      case _ =>
        matches := MatchesFileName(e.Name(), c, rx);
    }
    if !matches {
      return None;
    }
    var score := RelevanceScore(e.Name(), e.ageDays, c);
    r := Some(SearchResult(e.path, e.Name(), e.directory, e.mimeType, score, matchedLines,
                           At(e.modified), e.size));
  }

  function Examine(c: SearchCriteria, rx: RegexEngine): FileEntry -> Option<SearchResult>
  {
    e => ResultFor(e, c, rx)
  }

  /** Every hit of a walk over `entries`, in discovery order, without the limit. */
  function Hits(entries: seq<FileEntry>, c: SearchCriteria, rx: RegexEngine): seq<SearchResult>
  {
    Collect(entries, Examine(c, rx))
  }

  /** The walk stops appending once it holds maxResults results; it checks only after
      an append, so it keeps at least one hit even when maxResults is below 1. */
  function WalkLimit(maxResults: int): nat
  {
    if maxResults < 1 then 1 else maxResults
  }

  lemma HitsSnoc(entries: seq<FileEntry>, i: nat, c: SearchCriteria, rx: RegexEngine)
    requires i < |entries|
    ensures Hits(entries[..i + 1], c, rx) ==
      Hits(entries[..i], c, rx) +
      (if ResultFor(entries[i], c, rx).Some? then [ResultFor(entries[i], c, rx).value] else [])
  {
    CollectSnoc(entries, i, Examine(c, rx));
  }

  /** Once the walk holds WalkLimit hits, what it holds is the limited list of all hits. */
  lemma WalkStopsAt(entries: seq<FileEntry>, k: nat, c: SearchCriteria, rx: RegexEngine)
    requires k <= |entries|
    requires |Hits(entries[..k], c, rx)| == WalkLimit(c.maxResults)
    ensures Take(Hits(entries, c, rx), WalkLimit(c.maxResults)) == Hits(entries[..k], c, rx)
  {
    CollectPrefix(entries, k, Examine(c, rx));
  }

  /** Every hit comes from an entry that passes the filters and the primary matcher, and
      carries that entry's path and score. */
  lemma HitSound(entries: seq<FileEntry>, c: SearchCriteria, rx: RegexEngine, j: nat)
    requires j < |Hits(entries, c, rx)|
    ensures exists i :: (0 <= i < |entries| && PassesFilters(entries[i], c) &&
      PrimaryMatch(entries[i], c, rx).0 &&
      Hits(entries, c, rx)[j].filePath == entries[i].path &&
      Hits(entries, c, rx)[j].relevanceScore == RelevanceScore(entries[i].Name(), entries[i].ageDays, c))
  {
    CollectSound(entries, Examine(c, rx), j);
  }

  // ---------------------------------------------------------------- ranking

  predicate NonIncreasing(s: seq<SearchResult>)
  {
    forall i, j :: 0 <= i < j < |s| ==> s[i].relevanceScore >= s[j].relevanceScore
  }

  /** Places `x` before the first element whose score is not above its own. */
  function InsertByScore(x: SearchResult, s: seq<SearchResult>): (r: seq<SearchResult>)
    ensures multiset(r) == multiset(s) + multiset{x}
    ensures forall k | 0 <= k < |r| :: r[k] == x || r[k] in s
  {
    if s == [] then [x]
    else if s[0].relevanceScore <= x.relevanceScore then [x] + s
    else
      assert s == [s[0]] + s[1..];
      [s[0]] + InsertByScore(x, s[1..])
  }

  lemma TailKeepsOrder(s: seq<SearchResult>)
    requires s != [] && NonIncreasing(s)
    ensures NonIncreasing(s[1..])
  {
    forall i, j | 0 <= i < j < |s| - 1 ensures s[1..][i].relevanceScore >= s[1..][j].relevanceScore {
      assert s[1..][i] == s[i + 1] && s[1..][j] == s[j + 1];
    }
  }

  lemma ConsKeepsOrder(h: SearchResult, rest: seq<SearchResult>)
    requires NonIncreasing(rest)
    requires forall k | 0 <= k < |rest| :: rest[k].relevanceScore <= h.relevanceScore
    ensures NonIncreasing([h] + rest)
  {
    var r := [h] + rest;
    forall i, j | 0 <= i < j < |r| ensures r[i].relevanceScore >= r[j].relevanceScore {
      assert r[j] == rest[j - 1];
      if i > 0 {
        assert r[i] == rest[i - 1];
      }
    }
  }

  /** Inserting into a list ordered by non-increasing score keeps it ordered. */
  lemma {:induction false} InsertKeepsOrder(x: SearchResult, s: seq<SearchResult>)
    requires NonIncreasing(s)
    ensures NonIncreasing(InsertByScore(x, s))
  {
    if s != [] && s[0].relevanceScore > x.relevanceScore {
      var tail := s[1..];
      TailKeepsOrder(s);
      InsertKeepsOrder(x, tail);
      var rest := InsertByScore(x, tail);
      forall k | 0 <= k < |rest| ensures rest[k].relevanceScore <= s[0].relevanceScore {
        if rest[k] != x {
          var m :| 0 <= m < |tail| && tail[m] == rest[k];
          assert tail[m] == s[m + 1];
        }
      }
      ConsKeepsOrder(s[0], rest);
    }
  }

  /** rankResults: the same results, ordered by non-increasing relevance score. Ties
      keep no promised order (the source sorts with std::sort). */
  function SortByScore(s: seq<SearchResult>): (r: seq<SearchResult>)
    ensures NonIncreasing(r)
    ensures multiset(r) == multiset(s)
  {
    if s == [] then []
    else
      assert s == [s[0]] + s[1..];
      var sorted := SortByScore(s[1..]);
      InsertKeepsOrder(s[0], sorted);
      InsertByScore(s[0], sorted)
  }

  /** The truncation of performSearch: results.mid(0, maxResults) when there are more
      results than maxResults; QList::mid keeps everything for a negative length. */
  function Truncate(s: seq<SearchResult>, maxResults: int): (r: seq<SearchResult>)
    ensures r <= s
    ensures maxResults >= 0 ==> |r| == Min(|s|, maxResults)
    ensures maxResults < 0 ==> r == s
  {
    if |s| > maxResults then (if maxResults >= 0 then s[..maxResults] else s) else s
  }

  lemma PrefixKeepsOrder(s: seq<SearchResult>, r: seq<SearchResult>)
    requires NonIncreasing(s) && r <= s
    ensures NonIncreasing(r)
  {
    assert forall k | 0 <= k < |r| :: r[k] == s[k];
  }

  /** Ranking and truncating part of a walk: ordered, within the limit, made of hits,
      and all of the walk when it held fewer than maxResults. */
  lemma RankTruncate(found: seq<SearchResult>, hits: seq<SearchResult>, maxResults: int)
    requires found <= hits && |found| <= WalkLimit(maxResults)
    ensures var results := Truncate(SortByScore(found), maxResults);
      NonIncreasing(results) &&
      (maxResults >= 0 ==> |results| <= maxResults) &&
      (maxResults < 0 ==> |results| <= 1) &&
      (forall r | r in results :: r in hits) &&
      (maxResults != 0 ==> multiset(results) == multiset(found)) &&
      (maxResults == 0 ==> results == [])
  {
    var ranked := SortByScore(found);
    var results := Truncate(ranked, maxResults);
    assert |ranked| == |found| by {
      assert |multiset(ranked)| == |multiset(found)|;
    }
    PrefixKeepsOrder(ranked, results);
    forall r | r in results ensures r in hits {
      assert r in multiset(ranked);
    }
  }

  // ---------------------------------------------------------------- the engine

  datatype SearchEvent =
    | SearchStarted(query: string)
    | ResultFound(result: SearchResult)
    | SearchCompleted(results: seq<SearchResult>)
    | SearchCancelled

  /** One resultFound signal per result, in order. */
  function Announced(results: seq<SearchResult>): (events: seq<SearchEvent>)
    ensures |events| == |results|
    ensures forall k | 0 <= k < |results| :: events[k] == ResultFound(results[k])
  {
    if results == [] then []
    else
      var n := |results| - 1;
      Announced(results[..n]) + [ResultFound(results[n])]
  }

  lemma AnnouncedSnoc(results: seq<SearchResult>, r: SearchResult)
    ensures Announced(results + [r]) == Announced(results) + [ResultFound(r)]
  {
    assert (results + [r])[..|results|] == results;
  }

  /** The event log after announcing one more result. */
  lemma AnnouncedAfter(before: seq<SearchEvent>, results: seq<SearchResult>, r: SearchResult)
    ensures before + Announced(results) + [ResultFound(r)] == before + Announced(results + [r])
  {
    AnnouncedSnoc(results, r);
  }

  class SearchEngine {
    var isSearching: bool
    var searchCancelled: bool
    var maxResults: int
    var maxDepth: int
    var timeoutMs: int
    var threadCount: int
    var indexBuilt: bool
    var lastSearchTime: int
    var resultCount: int
    var fileIndex: map<string, FileEntry>
    var contentIndex: map<string, seq<string>>
    var metadataIndex: map<string, map<string, string>>
    /** Signals emitted so far, in order. */
    var events: seq<SearchEvent>

    /** `idealThreadCount` is QThread::idealThreadCount(). */
    constructor (idealThreadCount: int)
      ensures !isSearching && !searchCancelled && !indexBuilt
      ensures maxResults == 10000 && maxDepth == 100 && timeoutMs == 30000
      ensures threadCount == idealThreadCount
      ensures lastSearchTime == 0 && resultCount == 0 && events == []
      ensures fileIndex == map[] && contentIndex == map[] && metadataIndex == map[]
    {
      isSearching, searchCancelled := false, false;
      maxResults, maxDepth, timeoutMs, threadCount := 10000, 100, 30000, idealThreadCount;
      indexBuilt := false;
      lastSearchTime, resultCount := 0, 0;
      fileIndex, contentIndex, metadataIndex := map[], map[], map[];
      events := [];
    }

    /** cancelSearch. */
    method CancelSearch()
      modifies this`searchCancelled, this`isSearching, this`events
      ensures searchCancelled && !isSearching
      ensures events == old(events) + [SearchCancelled]
    {
      searchCancelled := true;
      isSearching := false;
      events := events + [SearchCancelled];
    }

    /** search(criteria): cancels a running search first, then marks a new run as
        started. The run itself is PerformSearch. */
    method Search(c: SearchCriteria)
      modifies this`searchCancelled, this`isSearching, this`events
      ensures isSearching && !searchCancelled
      ensures events == old(events) + (if old(isSearching) then [SearchCancelled] else []) +
                        [SearchStarted(c.query)]
    {
      if isSearching {
        CancelSearch();
      }
      isSearching := true;
      searchCancelled := false;
      events := events + [SearchStarted(c.query)];
    }

    /** search(query, basePath). */
    method SearchFor(query: string, basePath: string)
      modifies this`searchCancelled, this`isSearching, this`events
      ensures isSearching && !searchCancelled
      ensures events == old(events) + (if old(isSearching) then [SearchCancelled] else []) +
                        [SearchStarted(query)]
    {
      Search(QueryCriteria(query, basePath));
    }

    /** searchInDirectory over the entries the iterator yields: appends each hit (and
        announces it) until maxResults hits are held; a cancelled engine walks nothing. */
    method SearchInDirectory(entries: seq<FileEntry>, c: SearchCriteria, rx: RegexEngine)
      returns (results: seq<SearchResult>)
      modifies this`events
      ensures results == if searchCancelled then [] else Take(Hits(entries, c, rx), WalkLimit(c.maxResults))
      ensures events == old(events) + Announced(results)
    {
      results := [];
      if searchCancelled {
        return;
      }
      var i := 0;
      while i < |entries| && !searchCancelled
        invariant 0 <= i <= |entries|
        invariant results == Hits(entries[..i], c, rx)
        invariant |results| < WalkLimit(c.maxResults)
        invariant events == old(events) + Announced(results)
      {
        var r := ExamineEntry(entries[i], c, rx);
        HitsSnoc(entries, i, c, rx);
        if r.Some? {
          AnnouncedAfter(old(events), results, r.value);
          results := results + [r.value];
          events := events + [ResultFound(r.value)];
          assert results == Hits(entries[..i + 1], c, rx);
          if |results| >= c.maxResults {
            assert |results| == WalkLimit(c.maxResults);
            WalkStopsAt(entries, i + 1, c, rx);
            return;
          }
        }
        i := i + 1;
      }
      assert !searchCancelled;
      assert entries[..i] == entries;
    }

    /** performSearch: resolve the scope, walk it, rank, truncate, report. The result is
        ordered by non-increasing score, never longer than maxResults (one hit survives
        a negative maxResults), made only of hits of the walk, and all of them when the
        walk held fewer than maxResults and was not cancelled. Unless maxResults is 0
        it holds exactly what the walk collected, reordered: the first hits up to the
        walk's limit, or nothing after a cancellation. */
    method PerformSearch(c: SearchCriteria, env: Environment, rx: RegexEngine)
      returns (results: seq<SearchResult>)
      modifies this`events, this`resultCount
      ensures NonIncreasing(results)
      ensures c.maxResults >= 0 ==> |results| <= c.maxResults
      ensures c.maxResults < 0 ==> |results| <= 1
      ensures forall r | r in results ::
        r in Hits(env.walk(ResolveScope(c, env), WalkOptionsOf(c)), c, rx)
      ensures !searchCancelled && |Hits(env.walk(ResolveScope(c, env), WalkOptionsOf(c)), c, rx)| < c.maxResults ==>
        multiset(results) == multiset(Hits(env.walk(ResolveScope(c, env), WalkOptionsOf(c)), c, rx))
      ensures c.maxResults != 0 ==>
        multiset(results) == multiset(if searchCancelled then [] else
          Take(Hits(env.walk(ResolveScope(c, env), WalkOptionsOf(c)), c, rx), WalkLimit(c.maxResults)))
      ensures c.maxResults == 0 ==> results == []
      ensures resultCount == |results|
      ensures |events| > 0 && events[|events| - 1] == SearchCompleted(results)
    {
      var searchPath := ResolveScope(c, env);
      var walked := env.walk(searchPath, WalkOptionsOf(c));
      ghost var hits := Hits(walked, c, rx);
      var found := SearchInDirectory(walked, c, rx);
      RankTruncate(found, hits, c.maxResults);
      assert !searchCancelled && |hits| < c.maxResults ==> found == hits;
      var ranked := SortByScore(found);
      results := Truncate(ranked, c.maxResults);
      resultCount := |results|;
      events := events + [SearchCompleted(results)];
    }

    /** onSearchFinished: the run is over; `elapsedMs` is what the elapsed timer read. */
    method OnSearchFinished(elapsedMs: int)
      modifies this`isSearching, this`lastSearchTime
      ensures !isSearching && lastSearchTime == elapsedMs
    {
      isSearching := false;
      lastSearchTime := elapsedMs;
    }

    /** clearIndex. */
    method ClearIndex()
      modifies this`fileIndex, this`contentIndex, this`metadataIndex, this`indexBuilt
      ensures fileIndex == map[] && contentIndex == map[] && metadataIndex == map[]
      ensures !indexBuilt
    {
      fileIndex, contentIndex, metadataIndex := map[], map[], map[];
      indexBuilt := false;
    }
  }

  /** searchBySizeRange(min, max) never reports a file larger than a positive max or
      smaller than a positive min, whatever its name. */
  lemma SizeRangeExcludes(e: FileEntry, lo: int, hi: int, basePath: string, rx: RegexEngine)
    requires (hi > 0 && e.size > hi) || (lo > 0 && e.size < lo)
    ensures ResultFor(e, BySizeRangeCriteria(lo, hi, basePath), rx) == None
  {
  }
}

=== FILE: search_matching.dfy ===
/** The per-file tests of SearchEngine.cpp: the name matcher, the size / date / type /
    exclude filters, the positional fuzzy score, binary detection and content-line
    capture, and the tiered relevance score. */
module SearchMatching {
  import opened Text
  import opened Entries
  import opened SearchTypes

  /** QRegularExpression, which the model does not implement: `hasMatch(pattern, text)`
      and `escape(text)` (QRegularExpression::escape) are supplied from outside. */
  datatype RegexEngine = RegexEngine(hasMatch: (string, string) -> bool, escape: string -> string)

  function Min(a: int, b: int): int { if a < b then a else b }
  function Max(a: int, b: int): int { if a < b then b else a }
  function Abs(a: int): nat { if a < 0 then -a else a }

  /** The query or text as compared: lower-cased unless the search is case sensitive. */
  function Normalise(s: string, caseSensitive: bool): string
  {
    if caseSensitive then s else Lower(s)
  }

  /** The whole-word pattern "\b" + escape(query) + "\b". */
  function WholeWordPattern(rx: RegexEngine, query: string): string
  {
    "\\b" + rx.escape(query) + "\\b"
  }

  /** The three matching modes shared by the name and the content matcher. */
  predicate TextHit(target: string, c: SearchCriteria, rx: RegexEngine)
  {
    var query := Normalise(c.query, c.caseSensitive);
    var text := Normalise(target, c.caseSensitive);
    if c.useRegex then rx.hasMatch(query, text)
    else if c.wholeWords then rx.hasMatch(WholeWordPattern(rx, query), text)
    else Contains(text, query)
  }

  // ---------------------------------------------------------------- name matcher

  /** matchesFileName. */
  predicate MatchesFileName(fileName: string, c: SearchCriteria, rx: RegexEngine)
  {
    TextHit(fileName, c, rx)
  }

  /** In plain mode a name matches iff the (normalised) query is a substring of the
      (normalised) name, and without case sensitivity the letter case of neither the
      name nor the query changes the outcome. */
  lemma NameMatchPlainMode(name: string, name': string, c: SearchCriteria, query': string, rx: RegexEngine)
    requires !c.useRegex && !c.wholeWords
    ensures MatchesFileName(name, c, rx) <==>
      Contains(Normalise(name, c.caseSensitive), Normalise(c.query, c.caseSensitive))
    ensures !c.caseSensitive && Lower(name) == Lower(name') && Lower(c.query) == Lower(query') ==>
      (MatchesFileName(name, c, rx) <==> MatchesFileName(name', c.(query := query'), rx))
  {
  }

  // ---------------------------------------------------------------- filters

  /** m_fileTypeExtensions: the named file-type categories. */
  const FileTypeExtensions: map<string, seq<string>> := map[
    "images" := ["jpg", "jpeg", "png", "gif", "bmp", "tiff", "svg"],
    "documents" := ["pdf", "doc", "docx", "txt", "rtf", "odt"],
    "videos" := ["mp4", "avi", "mov", "wmv", "flv", "mkv"],
    "audio" := ["mp3", "wav", "flac", "aac", "ogg", "m4a"],
    "archives" := ["zip", "rar", "7z", "tar", "gz", "bz2"]]

  /** One entry of criteria.fileTypes accepts a (lower-cased) extension: a category name
      looks the extension up in its table, anything else is compared literally. */
  predicate TypeAccepts(fileType: string, extension: string)
  {
    if fileType in FileTypeExtensions then extension in FileTypeExtensions[fileType]
    else Lower(fileType) == extension
  }

  predicate PassesSizeFilter(size: int, c: SearchCriteria)
  {
    !c.useSizeFilter ||
    (!(c.minSize > 0 && size < c.minSize) && !(c.maxSize > 0 && size > c.maxSize))
  }

  predicate PassesDateFilter(modified: int, c: SearchCriteria)
  {
    !c.useDateFilter ||
    (!(c.dateFrom.At? && modified < c.dateFrom.secs) && !(c.dateTo.At? && modified > c.dateTo.secs))
  }

  predicate PassesTypeFilter(name: string, c: SearchCriteria)
  {
    c.fileTypes == [] ||
    exists k | 0 <= k < |c.fileTypes| :: TypeAccepts(c.fileTypes[k], Lower(Suffix(name)))
  }

  predicate Excluded(name: string, c: SearchCriteria)
  {
    exists k | 0 <= k < |c.excludePatterns| :: Contains(Lower(name), Lower(c.excludePatterns[k]))
  }

  /** A category name accepts exactly the extensions of its table, whatever the letter
      case of the file's suffix; any other type must equal the suffix ignoring case. */
  lemma TypeFilterMeaning(name: string, fileType: string, c: SearchCriteria)
    requires c.fileTypes == [fileType]
    ensures fileType in FileTypeExtensions ==>
      (PassesTypeFilter(name, c) <==> Lower(Suffix(name)) in FileTypeExtensions[fileType])
    ensures fileType !in FileTypeExtensions ==>
      (PassesTypeFilter(name, c) <==> Lower(fileType) == Lower(Suffix(name)))
  {
    assert c.fileTypes[0] == fileType;
  }

  /** The conjunction matchesFilters computes. */
  predicate PassesFilters(e: FileEntry, c: SearchCriteria)
  {
    PassesSizeFilter(e.size, c) && PassesDateFilter(e.modified, c) &&
    PassesTypeFilter(e.Name(), c) && !Excluded(e.Name(), c)
  }

  /** matchesFilters, with its two loops over fileTypes and excludePatterns. */
  method MatchesFilters(e: FileEntry, c: SearchCriteria) returns (ok: bool)
    ensures ok == PassesFilters(e, c)
  {
    if c.useSizeFilter {
      if c.minSize > 0 && e.size < c.minSize {
        return false;
      }
      if c.maxSize > 0 && e.size > c.maxSize {
        return false;
      }
    }
    if c.useDateFilter {
      if c.dateFrom.At? && e.modified < c.dateFrom.secs {
        return false;
      }
      if c.dateTo.At? && e.modified > c.dateTo.secs {
        return false;
      }
    }
    var name := e.Name();
    if c.fileTypes != [] {
      var extension := Lower(Suffix(name));
      var matchesType := false;
      var k := 0;
      while k < |c.fileTypes|
        invariant 0 <= k <= |c.fileTypes|
        invariant matchesType <==> exists j :: 0 <= j < k && TypeAccepts(c.fileTypes[j], extension)
      {
        var fileType := c.fileTypes[k];
        if fileType in FileTypeExtensions {
          if extension in FileTypeExtensions[fileType] {
            matchesType := true;
            k := k + 1;
            break;
          }
        } else if Lower(fileType) == extension {
          matchesType := true;
          k := k + 1;
          break;
        }
        k := k + 1;
      }
      if !matchesType {
        return false;
      }
    }
    var lowerName := Lower(name);
    for k := 0 to |c.excludePatterns|
      invariant forall j :: 0 <= j < k ==> !Contains(lowerName, Lower(c.excludePatterns[j]))
    {
      if Contains(lowerName, Lower(c.excludePatterns[k])) {
        return false;
      }
    }
    return true;
  }

  /** What the filters mean: size bounds are inclusive and a bound of 0 (or less) is
      open; each date bound is inclusive and an invalid one is open; an empty type list
      passes everything; a file passes exactly when it passes all four, so any exclude
      pattern found in the name, ignoring case, rejects it. */
  lemma FilterMeaning(e: FileEntry, c: SearchCriteria)
    ensures c.useSizeFilter ==>
      (PassesSizeFilter(e.size, c) <==>
        (c.minSize <= 0 || c.minSize <= e.size) && (c.maxSize <= 0 || e.size <= c.maxSize))
    ensures !c.useSizeFilter ==> PassesSizeFilter(e.size, c)
    ensures c.useDateFilter ==>
      (PassesDateFilter(e.modified, c) <==>
        (c.dateFrom.Invalid? || c.dateFrom.secs <= e.modified) &&
        (c.dateTo.Invalid? || e.modified <= c.dateTo.secs))
    ensures !c.useDateFilter ==> PassesDateFilter(e.modified, c)
    ensures c.fileTypes == [] ==> PassesTypeFilter(e.Name(), c)
    ensures PassesFilters(e, c) <==>
      PassesSizeFilter(e.size, c) && PassesDateFilter(e.modified, c) && PassesTypeFilter(e.Name(), c) &&
      !(exists k | 0 <= k < |c.excludePatterns| :: Contains(Lower(e.Name()), Lower(c.excludePatterns[k])))
  {
  }

  // ---------------------------------------------------------------- fuzzy score

  /** Number of positions below `n` where `a` and `b` differ. */
  function MismatchesUpTo(a: string, b: string, n: nat): (d: nat)
    requires n <= |a| && n <= |b|
    ensures d <= n
  {
    if n == 0 then 0
    else MismatchesUpTo(a, b, n - 1) + (if a[n - 1] != b[n - 1] then 1 else 0)
  }

  /** The "distance" of calculateFuzzyScore: positional mismatches over the common
      length plus the difference in length. */
  function FuzzyDistance(a: string, b: string): (d: nat)
    ensures d <= Max(|a|, |b|)
  {
    MismatchesUpTo(a, b, Min(|a|, |b|)) + Abs(|a| - |b|)
  }

  /** calculateFuzzyScore: 0 for an empty string, otherwise 1 - distance / maxLen on
      the lower-cased strings. */
  function FuzzyScore(query: string, target: string): (s: real)
    ensures 0.0 <= s <= 1.0
    ensures query == [] || target == [] ==> s == 0.0
  {
    if query == [] || target == [] then 0.0
    else
      var a := Lower(query);
      var b := Lower(target);
      var d := FuzzyDistance(a, b) as real;
      var m := Max(|a|, |b|) as real;
      RatioInUnit(FuzzyDistance(a, b), Max(|a|, |b|));
      1.0 - d / m
  }

  lemma RatioInUnit(d: nat, m: nat)
    requires 0 < m && d <= m
    ensures 0.0 <= d as real / m as real <= 1.0
  {
  }

  /** calculateFuzzyScore, with its counting loop. */
  method CalculateFuzzyScore(query: string, target: string) returns (score: real)
    ensures score == FuzzyScore(query, target)
  {
    if query == [] || target == [] {
      return 0.0;
    }
    var lowerQuery := Lower(query);
    var lowerTarget := Lower(target);
    var maxLen := Max(|lowerQuery|, |lowerTarget|);
    var minLen := Min(|lowerQuery|, |lowerTarget|);
    var distance := 0;
    for i := 0 to minLen
      invariant distance == MismatchesUpTo(lowerQuery, lowerTarget, i)
    {
      if lowerQuery[i] != lowerTarget[i] {
        distance := distance + 1;
      }
    }
    distance := distance + Abs(|lowerQuery| - |lowerTarget|);
    score := 1.0 - (distance as real) / (maxLen as real);
  }

  lemma {:induction false} NoMismatchesWithItself(a: string, n: nat)
    requires n <= |a|
    ensures MismatchesUpTo(a, a, n) == 0
  {
    if n > 0 {
      NoMismatchesWithItself(a, n - 1);
    }
  }

  lemma {:induction false} AllMismatches(a: string, b: string, n: nat)
    requires n <= |a| && n <= |b|
    requires forall i :: 0 <= i < n ==> a[i] != b[i]
    ensures MismatchesUpTo(a, b, n) == n
  {
    if n > 0 {
      AllMismatches(a, b, n - 1);
    }
  }

  /** Two non-empty strings equal up to letter case score exactly 1. */
  lemma FuzzyScoreEqualIgnoringCase(query: string, target: string)
    requires query != [] && Lower(query) == Lower(target)
    ensures FuzzyScore(query, target) == 1.0
  {
    NoMismatchesWithItself(Lower(query), |query|);
  }

  /** Strings that differ (ignoring case) at every position of their common length
      score 0, whatever their lengths: the score does not fall further as the length
      difference grows. */
  lemma FuzzyScoreDisjointPrefix(query: string, target: string)
    requires query != [] && target != []
    requires forall i :: 0 <= i < Min(|query|, |target|) ==> Lower(query)[i] != Lower(target)[i]
    ensures FuzzyScore(query, target) == 0.0
  {
    var a := Lower(query);
    var b := Lower(target);
    AllMismatches(a, b, Min(|a|, |b|));
    assert FuzzyDistance(a, b) == Max(|a|, |b|);
    var m := Max(|a|, |b|) as real;
    assert m / m == 1.0;
  }

  /** fuzzyMatch: the score reaches the threshold (0.6 unless given). A string always
      fuzzy-matches its own case variants, and nothing fuzzy-matches the empty string
      at a positive threshold. */
  function FuzzyMatch(query: string, target: string, threshold: real := DefaultFuzzyThreshold): (matched: bool)
    ensures query != [] && Lower(query) == Lower(target) && threshold <= 1.0 ==> matched
    ensures (query == [] || target == []) && threshold > 0.0 ==> !matched
  {
    if query != [] && Lower(query) == Lower(target) then
      FuzzyScoreEqualIgnoringCase(query, target);
      FuzzyScore(query, target) >= threshold
    else
      FuzzyScore(query, target) >= threshold
  }

  // ---------------------------------------------------------------- content

  /** isBinaryFile reads at most this many bytes. */
  const BinaryProbeLength: nat := 1024

  /** A zero byte lies in the probe exactly when one of the first 1024 bytes is zero. */
  lemma ZeroInProbe(bytes: seq<byte>)
    ensures 0 in bytes[..Min(|bytes|, BinaryProbeLength)] <==>
      exists k | 0 <= k < |bytes| && k < BinaryProbeLength :: bytes[k] == 0
  {
    var probe := bytes[..Min(|bytes|, BinaryProbeLength)];
    if 0 in probe {
      var k :| 0 <= k < |probe| && probe[k] == 0;
      assert bytes[k] == 0;
    }
    if exists k | 0 <= k < |bytes| && k < BinaryProbeLength :: bytes[k] == 0 {
      var k :| 0 <= k < |bytes| && k < BinaryProbeLength && bytes[k] == 0;
      assert probe[k] == 0;
    }
  }

  /** isBinaryFile: a file that cannot be opened counts as binary; an open one is
      binary exactly when one of its first 1024 bytes is zero. */
  function IsBinary(e: FileEntry): (binary: bool)
    ensures !e.opens ==> binary
    ensures e.opens ==>
      (binary <==> exists k | 0 <= k < |e.bytes| && k < BinaryProbeLength :: e.bytes[k] == 0)
  {
    ZeroInProbe(e.bytes);
    !e.opens || 0 in e.bytes[..Min(|e.bytes|, BinaryProbeLength)]
  }

  /** matchesContent keeps at most this many lines. */
  const MaxMatchedLines: nat := 10

  /** A line is captured (trimmed) when it contains the normalised query. */
  function CaptureLine(line: string, query: string, caseSensitive: bool): Option<string>
  {
    if Contains(Normalise(line, caseSensitive), query) then Some(Trim(line)) else None
  }

  function LineCapture(query: string, caseSensitive: bool): string -> Option<string>
  {
    line => CaptureLine(line, query, caseSensitive)
  }

  /** All lines matchesContent would capture, without the limit. */
  function MatchingLines(lines: seq<string>, query: string, caseSensitive: bool): seq<string>
  {
    Collect(lines, LineCapture(query, caseSensitive))
  }

  lemma MatchingLinesSnoc(lines: seq<string>, i: nat, query: string, caseSensitive: bool)
    requires i < |lines|
    ensures MatchingLines(lines[..i + 1], query, caseSensitive) ==
      MatchingLines(lines[..i], query, caseSensitive) +
      (if CaptureLine(lines[i], query, caseSensitive).Some? then [Trim(lines[i])] else [])
  {
    CollectSnoc(lines, i, LineCapture(query, caseSensitive));
  }

  lemma MatchingLinesPrefix(lines: seq<string>, i: nat, query: string, caseSensitive: bool)
    requires i <= |lines|
    ensures MatchingLines(lines[..i], query, caseSensitive) <= MatchingLines(lines, query, caseSensitive)
  {
    CollectPrefix(lines, i, LineCapture(query, caseSensitive));
  }

  /** The line-capture loop of matchesContent: stops once 10 lines are held. */
  method CaptureMatchedLines(lines: seq<string>, query: string, caseSensitive: bool)
    returns (matched: seq<string>)
    ensures matched == Take(MatchingLines(lines, query, caseSensitive), MaxMatchedLines)
  {
    matched := [];
    var i := 0;
    while i < |lines|
      invariant 0 <= i <= |lines|
      invariant matched == MatchingLines(lines[..i], query, caseSensitive)
      invariant |matched| < MaxMatchedLines
    {
      var line := lines[i];
      var testLine := if caseSensitive then line else Lower(line);
      MatchingLinesSnoc(lines, i, query, caseSensitive);
      if Contains(testLine, query) {
        matched := matched + [Trim(line)];
        if |matched| >= MaxMatchedLines {
          MatchingLinesPrefix(lines, i + 1, query, caseSensitive);
          return;
        }
      }
      i := i + 1;
    }
    assert lines[..i] == lines;
  }

  /** Every captured line is the trimmed form of an input line containing the query,
      and at most 10 are kept. */
  lemma CapturedLinesSound(lines: seq<string>, query: string, caseSensitive: bool, j: nat)
    requires j < |Take(MatchingLines(lines, query, caseSensitive), MaxMatchedLines)|
    ensures |Take(MatchingLines(lines, query, caseSensitive), MaxMatchedLines)| <= 10
    ensures exists i :: (0 <= i < |lines| &&
      Contains(Normalise(lines[i], caseSensitive), query) &&
      Take(MatchingLines(lines, query, caseSensitive), MaxMatchedLines)[j] == Trim(lines[i]))
  {
    var f := LineCapture(query, caseSensitive);
    CollectSound(lines, f, j);
    var i :| 0 <= i < |lines| && f(lines[i]) == Some(Collect(lines, f)[j]);
    assert CaptureLine(lines[i], query, caseSensitive).Some?;
  }

  /** The outcome of matchesContent: whether the file matches, and the lines kept. */
  function ContentMatch(e: FileEntry, c: SearchCriteria, rx: RegexEngine): (r: (bool, seq<string>))
  {
    if !c.includeBinaryFiles && IsBinary(e) then (false, [])
    else if !e.opens then (false, [])
    else
      var text := Decode(e.bytes);
      if TextHit(text, c, rx) then
        (true, Take(MatchingLines(Split(text, '\n'), Normalise(c.query, c.caseSensitive), c.caseSensitive),
                    MaxMatchedLines))
      else (false, [])
  }

  /** matchesContent. */
  method MatchesContent(e: FileEntry, c: SearchCriteria, rx: RegexEngine)
    returns (matches: bool, matchedLines: seq<string>)
    ensures (matches, matchedLines) == ContentMatch(e, c, rx)
  {
    if !c.includeBinaryFiles && IsBinary(e) {
      return false, [];
    }
    if !e.opens {
      return false, [];
    }
    var content := Decode(e.bytes);
    var query := Normalise(c.query, c.caseSensitive);
    matches := TextHit(content, c, rx);
    matchedLines := [];
    if matches {
      matchedLines := CaptureMatchedLines(Split(content, '\n'), query, c.caseSensitive);
    }
  }

  /** Binary files (a zero byte in the first 1024, or not openable) never match unless
      binaries are included; a file that cannot be opened never matches; no more than 10 lines
      are kept, and lines are kept only for a matching file. */
  lemma ContentMatchMeaning(e: FileEntry, c: SearchCriteria, rx: RegexEngine)
    ensures !c.includeBinaryFiles && IsBinary(e) ==> !ContentMatch(e, c, rx).0
    ensures !e.opens ==> !ContentMatch(e, c, rx).0
    ensures |ContentMatch(e, c, rx).1| <= MaxMatchedLines
    ensures !ContentMatch(e, c, rx).0 ==> ContentMatch(e, c, rx).1 == []
  {
  }

  // ---------------------------------------------------------------- relevance

  /** The match tier of calculateRelevanceScore: 100 for the query itself, 75 for a
      proper prefix match, 50 for any other substring match, and otherwise a quarter
      of the fuzzy score. */
  function MatchTier(fileName: string, query: string): (t: real)
    ensures t == 100.0 <==> fileName == query
    ensures t == 75.0 <==> fileName != query && StartsWith(fileName, query)
    ensures t == 50.0 <==> Contains(fileName, query) && !StartsWith(fileName, query)
    ensures 50.0 <= t <==> Contains(fileName, query)
    ensures 0.0 <= t <= 100.0
    ensures !Contains(fileName, query) ==> t == FuzzyScore(query, fileName) * 25.0 <= 25.0
  {
    if fileName == query then
      StartsWithContains(fileName, query);
      100.0
    else if StartsWith(fileName, query) then
      StartsWithContains(fileName, query);
      75.0
    else if Contains(fileName, query) then 50.0
    else FuzzyScore(query, fileName) * 25.0
  }

  /** The recency bonus: +10 under a week, +5 under thirty days. */
  function RecencyBonus(ageDays: int): (b: real)
    ensures b == 10.0 <==> ageDays < 7
    ensures b == 5.0 <==> 7 <= ageDays < 30
    ensures b == 0.0 <==> 30 <= ageDays
  {
    if ageDays < 7 then 10.0 else if ageDays < 30 then 5.0 else 0.0
  }

  /** calculateRelevanceScore for a file name and its age in days. */
  function RelevanceScore(fileName: string, ageDays: int, c: SearchCriteria): (s: real)
    ensures 0.0 <= s <= 110.0
  {
    var query := Normalise(c.query, c.caseSensitive);
    var name := Normalise(fileName, c.caseSensitive);
    MatchTier(name, query) + RecencyBonus(ageDays)
  }

  /** A name containing the query always outranks one that does not, whatever their
      ages. */
  lemma RelevanceTiersDominate(n1: string, age1: int, n2: string, age2: int, c: SearchCriteria)
    requires Contains(Normalise(n1, c.caseSensitive), Normalise(c.query, c.caseSensitive))
    requires !Contains(Normalise(n2, c.caseSensitive), Normalise(c.query, c.caseSensitive))
    ensures RelevanceScore(n1, age1, c) > RelevanceScore(n2, age2, c)
  {
  }

  /** Among names of equal age, the exact name beats every other name, and a proper
      prefix match beats every name that does not start with the query. */
  lemma RelevanceTiersOrdered(n1: string, n2: string, ageDays: int, c: SearchCriteria)
    ensures Normalise(n1, c.caseSensitive) == Normalise(c.query, c.caseSensitive) &&
            Normalise(n2, c.caseSensitive) != Normalise(c.query, c.caseSensitive) ==>
      RelevanceScore(n1, ageDays, c) > RelevanceScore(n2, ageDays, c)
    ensures Normalise(n1, c.caseSensitive) != Normalise(c.query, c.caseSensitive) &&
            StartsWith(Normalise(n1, c.caseSensitive), Normalise(c.query, c.caseSensitive)) &&
            !StartsWith(Normalise(n2, c.caseSensitive), Normalise(c.query, c.caseSensitive)) ==>
      RelevanceScore(n1, ageDays, c) > RelevanceScore(n2, ageDays, c)
  {
  }
}

=== FILE: search_types.dfy ===
/** The value types of SearchEngine.h: the request (SearchCriteria), one hit
    (SearchResult) and the constants the header fixes. */
module SearchTypes {
  import opened Entries

  datatype SearchType =
    | FileNameSearch | ContentSearch | MetadataSearch | AdvancedSearch | FuzzySearch
    | RegexSearch | DateSearch | SizeSearch | TypeSearch

  datatype SearchScope =
    | CurrentDirectory | CurrentDirectoryRecursive | HomeDirectory | EntireSystem | CustomPath

  datatype SearchCriteria = SearchCriteria(
    query: string,
    searchType: SearchType,
    scope: SearchScope,
    customPath: string,
    fileTypes: seq<string>,
    excludePatterns: seq<string>,
    minSize: int,
    maxSize: int,
    dateFrom: Timestamp,
    dateTo: Timestamp,
    caseSensitive: bool,
    wholeWords: bool,
    useRegex: bool,
    includeBinaryFiles: bool,
    followSymlinks: bool,
    searchHiddenFiles: bool,
    searchSystemFiles: bool,
    fuzzyMatching: bool,
    useSizeFilter: bool,
    useDateFilter: bool,
    searchSubfolders: bool,
    maxResults: int,
    maxDepth: int,
    timeoutMs: int)

  /** A default-constructed SearchCriteria. */
  function DefaultCriteria(): (c: SearchCriteria)
    ensures c.searchType == FileNameSearch && c.scope == CurrentDirectory
    ensures c.minSize == 0 && c.maxSize == 0
    ensures c.query == "" && c.customPath == "" && c.fileTypes == [] && c.excludePatterns == []
    ensures c.dateFrom == Invalid && c.dateTo == Invalid
    ensures !c.caseSensitive && !c.wholeWords && !c.useRegex && !c.includeBinaryFiles
    ensures !c.followSymlinks && !c.searchHiddenFiles && !c.searchSystemFiles && !c.fuzzyMatching
    ensures !c.useSizeFilter && !c.useDateFilter && c.searchSubfolders
    ensures c.maxResults == 10000 && c.maxDepth == 100 && c.timeoutMs == 30000
  {
    SearchCriteria("", FileNameSearch, CurrentDirectory, "", [], [], 0, 0, Invalid, Invalid,
                   false, false, false, false, false, false, false, false, false, false, true,
                   10000, 100, 30000)
  }

  datatype SearchResult = SearchResult(
    filePath: string,
    fileName: string,
    directory: string,
    mimeType: string,
    relevanceScore: real,
    matchedLines: seq<string>,
    lastModified: Timestamp,
    fileSize: int)

  /** A default-constructed SearchResult. */
  function DefaultResult(): (r: SearchResult)
    ensures r.relevanceScore == 0.0 && r.fileSize == 0
    ensures r.filePath == "" && r.fileName == "" && r.matchedLines == [] && r.lastModified == Invalid
  {
    SearchResult("", "", "", "", 0.0, [], Invalid, 0)
  }

  /** Default threshold of fuzzyMatch. */
  const DefaultFuzzyThreshold: real := 0.6

  /** MAX_SEARCH_HISTORY. */
  const MaxSearchHistory: nat := 100
}

=== FILE: status_bar_widget.dfy ===
/** The StatusBarWidget of StatusBarWidget.cpp: the item-count text, the selection
    label, the shortened path, and the indexing / search activity flags. */
module StatusBar {
  import opened Text

  /** "N noun" or "N nouns", singular exactly for 1. */
  function Counted(n: int, noun: string): string
  {
    IntToString(n) + " " + noun + (if n == 1 then "" else "s")
  }

  lemma NatStringStartsWithDigit(n: nat)
    ensures '0' <= NatToString(n)[0] <= '9'
  {
  }

  /** A count text starts with a number, never with a letter. */
  lemma CountedStartsWithNumber(n: int, noun: string)
    ensures Counted(n, noun)[0] == '-' || '0' <= Counted(n, noun)[0] <= '9'
  {
    if n >= 0 {
      NatStringStartsWithDigit(n);
    }
  }

  /** Nothing that opens with a count reads "No items". */
  lemma CountedIsNotNoItems(n: int, noun: string, rest: string)
    ensures Counted(n, noun) + rest != "No items"
  {
    CountedStartsWithNumber(n, noun);
    assert (Counted(n, noun) + rest)[0] == Counted(n, noun)[0];
  }

  /** The item-count text of updateStatusText: "No items" exactly for an empty
      directory. */
  function CountText(files: int, folders: int): (text: string)
    ensures text == "No items" <==> files == 0 && folders == 0
  {
    if files == 0 && folders == 0 then "No items"
    else if folders == 0 then
      CountedIsNotNoItems(files, "file", "");
      assert Counted(files, "file") + "" == Counted(files, "file");
      Counted(files, "file")
    else if files == 0 then
      CountedIsNotNoItems(folders, "folder", "");
      assert Counted(folders, "folder") + "" == Counted(folders, "folder");
      Counted(folders, "folder")
    else
      CountedIsNotNoItems(files, "file", ", " + Counted(folders, "folder"));
      assert Counted(files, "file") + ", " + Counted(folders, "folder") ==
        Counted(files, "file") + (", " + Counted(folders, "folder"));
      Counted(files, "file") + ", " + Counted(folders, "folder")
  }

  /** "N noun" with the noun in the plural exactly when N is not 1. */
  lemma CountedText(n: int, noun: string)
    ensures Counted(n, noun) == IntToString(n) + (if n == 1 then " " + noun else " " + noun + "s")
  {
  }

  /** The exact count text: the file count, the folder count, or both joined by ", ",
      each noun singular exactly for a count of 1. */
  lemma CountTextExact(files: int, folders: int)
    ensures files != 0 && folders == 0 ==>
      CountText(files, folders) == IntToString(files) + (if files == 1 then " file" else " files")
    ensures files == 0 && folders != 0 ==>
      CountText(files, folders) == IntToString(folders) + (if folders == 1 then " folder" else " folders")
    ensures files != 0 && folders != 0 ==>
      CountText(files, folders) ==
        IntToString(files) + (if files == 1 then " file" else " files") + ", " +
        IntToString(folders) + (if folders == 1 then " folder" else " folders")
  {
    assert " " + "file" == " file" && " " + "file" + "s" == " files";
    assert " " + "folder" == " folder" && " " + "folder" + "s" == " folders";
    if files != 0 && folders == 0 {
      assert CountText(files, folders) == Counted(files, "file");
      CountedText(files, "file");
    } else if files == 0 && folders != 0 {
      assert CountText(files, folders) == Counted(folders, "folder");
      CountedText(folders, "folder");
    } else if files != 0 && folders != 0 {
      assert CountText(files, folders) == Counted(files, "file") + ", " + Counted(folders, "folder");
      CountedText(files, "file");
      CountedText(folders, "folder");
      JoinCounts(IntToString(files), if files == 1 then " file" else " files", ", ",
                 IntToString(folders), if folders == 1 then " folder" else " folders");
    }
  }

  /** Two counts joined by a separator, regrouped. */
  lemma JoinCounts(n: string, noun: string, sep: string, m: string, noun': string)
    ensures (n + noun) + sep + (m + noun') == n + noun + sep + m + noun'
    ensures n + noun + sep + m + noun' == (n + noun) + (sep + m + noun')
  {
  }

  /** The text opens with the file count when there are files, and with the folder
      count when there are only folders. */
  lemma CountTextOpensWithCount(files: int, folders: int)
    ensures files != 0 ==> StartsWith(CountText(files, folders), IntToString(files) + " file")
    ensures files == 0 && folders != 0 ==>
      StartsWith(CountText(files, folders), IntToString(folders) + " folder")
  {
    if files != 0 {
      var p := IntToString(files) + " file";
      assert Counted(files, "file")[..|p|] == p;
      assert CountText(files, folders)[..|p|] == Counted(files, "file")[..|p|];
    }
  }

  /** The text ends in "s" exactly when the last count shown is not 1. */
  lemma CountTextPlural(files: int, folders: int)
    requires files != 0 || folders != 0
    ensures var t := CountText(files, folders);
      t[|t| - 1] == 's' <==> (if folders != 0 then folders else files) != 1
  {
  }

  const MaxPathLength: nat := 60

  /** The path label of setCurrentPath: a path longer than 60 characters shows as
      "..." and its last 57 characters. */
  function DisplayPath(path: string): (shown: string)
    ensures |shown| <= MaxPathLength
    ensures |path| <= MaxPathLength ==> shown == path
    ensures |path| > MaxPathLength ==>
      |shown| == MaxPathLength && shown[..3] == "..." &&
      shown[3..] == path[|path| - (MaxPathLength - 3)..]
  {
    if |path| > MaxPathLength then "..." + path[|path| - (MaxPathLength - 3)..] else path
  }

  class StatusBarWidget {
    var fileCount: int
    var folderCount: int
    var selectedCount: int
    var indexingActive: bool
    var searchActive: bool
    var currentPath: string
    var shownPath: string
    var countLabel: string
    var selectedLabel: string
    var selectedVisible: bool
    /** Markers that a progress of 100 scheduled a delayed setIndexingCompleted /
        setSearchCompleted; a direct call clears them, though the timer itself (not
        modelled) would still fire. */
    var indexingCompletionPending: bool
    var searchCompletionPending: bool

    /** The labels show the counts. */
    ghost predicate Valid()
      reads this
    {
      countLabel == CountText(fileCount, folderCount) &&
      selectedVisible == (selectedCount > 0) &&
      (selectedCount > 0 ==> selectedLabel == IntToString(selectedCount) + " selected")
    }

    constructor ()
      ensures Valid()
      ensures fileCount == 0 && folderCount == 0 && selectedCount == 0
      ensures !indexingActive && !searchActive
    {
      fileCount, folderCount, selectedCount := 0, 0, 0;
      indexingActive, searchActive := false, false;
      currentPath, shownPath := [], [];
      countLabel := "No items";
      selectedLabel := [];
      selectedVisible := false;
      indexingCompletionPending, searchCompletionPending := false, false;
    }

    /** updateStatusText: the selection label is refreshed and shown only when there is
        a selection (hidden, it keeps its old text); the count label always follows. */
    method UpdateStatusText()
      modifies this`selectedLabel, this`selectedVisible, this`countLabel
      ensures Valid()
      ensures selectedCount <= 0 ==> selectedLabel == old(selectedLabel)
    {
      if selectedCount > 0 {
        selectedLabel := IntToString(selectedCount) + " selected";
        selectedVisible := true;
      } else {
        selectedVisible := false;
      }
      countLabel := CountText(fileCount, folderCount);
    }

    /** setFileCount. */
    method SetFileCount(files: int, folders: int)
      modifies this`fileCount, this`folderCount, this`selectedLabel, this`selectedVisible, this`countLabel
      ensures Valid()
      ensures fileCount == files && folderCount == folders
      ensures countLabel == CountText(files, folders)
    {
      fileCount := files;
      folderCount := folders;
      UpdateStatusText();
    }

    /** setSelectedCount. */
    method SetSelectedCount(count: int)
      modifies this`selectedCount, this`selectedLabel, this`selectedVisible, this`countLabel
      ensures Valid()
      ensures selectedCount == count && (selectedVisible <==> count > 0)
    {
      selectedCount := count;
      UpdateStatusText();
    }

    /** setCurrentPath. */
    method SetCurrentPath(path: string)
      modifies this`currentPath, this`shownPath
      ensures currentPath == path && shownPath == DisplayPath(path)
      ensures |shownPath| <= MaxPathLength
    {
      currentPath := path;
      var display := path;
      if |display| > MaxPathLength {
        display := "..." + display[|display| - (MaxPathLength - 3)..];
      }
      shownPath := display;
    }

    /** setIndexingProgress: indexing is active; from 100 on, completion is scheduled. */
    method SetIndexingProgress(progress: int)
      modifies this`indexingActive, this`indexingCompletionPending
      ensures indexingActive
      ensures indexingCompletionPending == (old(indexingCompletionPending) || progress >= 100)
    {
      indexingActive := true;
      if progress >= 100 {
        indexingCompletionPending := true;
      }
    }

    /** setIndexingCompleted (also what a scheduled completion runs). */
    method SetIndexingCompleted()
      modifies this`indexingActive, this`indexingCompletionPending
      ensures !indexingActive && !indexingCompletionPending
    {
      indexingActive := false;
      indexingCompletionPending := false;
    }

    /** setSearchProgress. */
    method SetSearchProgress(progress: int)
      modifies this`searchActive, this`searchCompletionPending
      ensures searchActive
      ensures searchCompletionPending == (old(searchCompletionPending) || progress >= 100)
    {
      searchActive := true;
      if progress >= 100 {
        searchCompletionPending := true;
      }
    }

    /** setSearchCompleted. */
    method SetSearchCompleted()
      modifies this`searchActive, this`searchCompletionPending
      ensures !searchActive && !searchCompletionPending
    {
      searchActive := false;
      searchCompletionPending := false;
    }
  }
}

=== FILE: text.dfy ===
/** String helpers shared by every part of the explorer: the QString operations the
    source relies on (toLower, contains, startsWith, trimmed, split, join, number
    formatting, QFileInfo::fileName / suffix), written over `seq<char>`.
    Case folding is ASCII only; see README. */
module Text {

  datatype Option<T> = None | Some(value: T)

  /** QString::toLower on one character (ASCII letters only). */
  function LowerChar(c: char): char
  {
    if 'A' <= c <= 'Z' then (c as int + 32) as char else c
  }

  function Lower(s: string): string
  {
    seq(|s|, i requires 0 <= i < |s| => LowerChar(s[i]))
  }

  lemma LowerIdempotent(s: string)
    ensures Lower(Lower(s)) == Lower(s)
  {
  }

  predicate StartsWith(s: string, prefix: string)
  {
    |prefix| <= |s| && s[..|prefix|] == prefix
  }

  /** QString::contains: `q` occurs as a contiguous block of `s` (the empty query
      occurs in every string). */
  predicate Contains(s: string, q: string)
  {
    exists i | 0 <= i <= |s| - |q| :: StartsWith(s[i..], q)
  }

  lemma ContainsEmpty(s: string)
    ensures Contains(s, "")
  {
    assert StartsWith(s[0..], "");
  }

  lemma StartsWithContains(s: string, q: string)
    requires StartsWith(s, q)
    ensures Contains(s, q)
  {
    assert s[0..] == s;
  }

  /** QChar::isSpace restricted to ASCII. */
  predicate IsSpace(c: char)
  {
    c == ' ' || c == '\t' || c == '\n' || c == '\r' || c == '\U{000B}' || c == '\U{000C}'
  }

  function TrimStart(s: string): string
  {
    if s != [] && IsSpace(s[0]) then TrimStart(s[1..]) else s
  }

  function TrimEnd(s: string): string
  {
    if s != [] && IsSpace(s[|s| - 1]) then TrimEnd(s[..|s| - 1]) else s
  }

  /** QString::trimmed. */
  function Trim(s: string): string
  {
    TrimEnd(TrimStart(s))
  }

  /** The first position of `c` in `s`. */
  function IndexOf(s: string, c: char): (i: nat)
    requires c in s
    ensures i < |s| && s[i] == c && c !in s[..i]
  {
    if s[0] == c then 0 else 1 + IndexOf(s[1..], c)
  }

  /** QString::split(sep) keeping empty parts: the pieces between separators. */
  function Split(s: string, sep: char): (parts: seq<string>)
    ensures |parts| >= 1
    ensures forall k :: 0 <= k < |parts| ==> sep !in parts[k]
    decreases |s|
  {
    if sep !in s then [s]
    else
      var i := IndexOf(s, sep);
      [s[..i]] + Split(s[i + 1..], sep)
  }

  /** Drops empty strings, keeping the order of the others. */
  function NonEmpty(parts: seq<string>): (r: seq<string>)
    ensures forall k :: 0 <= k < |r| ==> r[k] != [] && r[k] in parts
  {
    if parts == [] then []
    else if parts[0] == [] then NonEmpty(parts[1..])
    else [parts[0]] + NonEmpty(parts[1..])
  }

  /** QString::split(sep, Qt::SkipEmptyParts). */
  function SplitSkipEmpty(s: string, sep: char): (parts: seq<string>)
  {
    NonEmpty(Split(s, sep))
  }

  /** QStringList::join(sep). */
  function Join(parts: seq<string>, sep: char): string
  {
    if parts == [] then ""
    else if |parts| == 1 then parts[0]
    else parts[0] + [sep] + Join(parts[1..], sep)
  }

  /** No piece of a skip-empty split is empty or holds the separator. */
  lemma SplitSkipEmptyParts(s: string, sep: char)
    ensures forall k :: 0 <= k < |SplitSkipEmpty(s, sep)| ==>
      SplitSkipEmpty(s, sep)[k] != [] && sep !in SplitSkipEmpty(s, sep)[k]
  {
  }

  /** In `a + [sep] + b` with no separator in `a`, the first separator closes `a`. */
  lemma FirstSeparator(a: string, sep: char, b: string)
    requires sep !in a
    ensures var s := a + [sep] + b;
      sep in s && IndexOf(s, sep) == |a| && s[..|a|] == a && s[|a| + 1..] == b
  {
    var s := a + [sep] + b;
    assert s[|a|] == sep;
    var i := IndexOf(s, sep);
    assert forall j | 0 <= j < |a| :: s[j] != sep by {
      forall j | 0 <= j < |a| ensures s[j] != sep {
        assert s[j] == a[j];
      }
    }
    assert forall j | 0 <= j < i :: s[j] != sep by {
      forall j | 0 <= j < i ensures s[j] != sep {
        assert s[..i][j] == s[j];
      }
    }
    assert i == |a|;
    assert s[..|a|] == a;
    assert s[|a| + 1..] == b;
  }

  lemma {:induction false} SplitJoin(parts: seq<string>, sep: char)
    requires |parts| >= 1
    requires forall k :: 0 <= k < |parts| ==> sep !in parts[k]
    ensures Split(Join(parts, sep), sep) == parts
  {
    if |parts| > 1 {
      var tail := Join(parts[1..], sep);
      FirstSeparator(parts[0], sep, tail);
      SplitJoin(parts[1..], sep);
      assert Split(Join(parts, sep), sep) == [parts[0]] + parts[1..];
    }
  }

  lemma {:induction false} NonEmptyKeeps(parts: seq<string>)
    requires forall k :: 0 <= k < |parts| ==> parts[k] != []
    ensures NonEmpty(parts) == parts
  {
    if parts != [] {
      NonEmptyKeeps(parts[1..]);
    }
  }

  /** Joining a list of non-empty, separator-free strings and splitting it again with
      empty parts skipped gives the list back. */
  lemma JoinThenSplitSkipEmpty(parts: seq<string>, sep: char)
    requires forall k :: 0 <= k < |parts| ==> parts[k] != [] && sep !in parts[k]
    ensures SplitSkipEmpty(Join(parts, sep), sep) == parts
  {
    if parts != [] {
      SplitJoin(parts, sep);
      NonEmptyKeeps(parts);
    } else {
      assert Split("", sep) == [""];
      assert [""][1..] == [];
      assert NonEmpty([""]) == [];
    }
  }

  function DigitChar(d: nat): char
    requires d < 10
  {
    "0123456789"[d]
  }

  /** Decimal rendering of a natural number, as QString::arg prints it. */
  function NatToString(n: nat): (s: string)
    ensures |s| >= 1
    ensures forall k :: 0 <= k < |s| ==> '0' <= s[k] <= '9'
  {
    if n < 10 then [DigitChar(n)] else NatToString(n / 10) + [DigitChar(n % 10)]
  }

  function IntToString(n: int): string
  {
    if n < 0 then "-" + NatToString(-n) else NatToString(n)
  }

  /** QFileInfo::fileName: the part of a path after the last '/'. */
  function FileName(path: string): string
    decreases |path|
  {
    if '/' !in path then path
    else FileName(path[IndexOf(path, '/') + 1..])
  }

  /** QFileInfo::suffix: the part of a file name after its last '.', or "" without one. */
  function Suffix(name: string): string
    decreases |name|
  {
    if '.' !in name then ""
    else
      var rest := name[IndexOf(name, '.') + 1..];
      if '.' in rest then Suffix(rest) else rest
  }

  /** The first `n` elements of `s`, or all of them when there are fewer
      (QList::mid(0, n) for n >= 0). */
  function Take<T>(s: seq<T>, n: nat): (r: seq<T>)
    ensures |r| == if n < |s| then n else |s|
    ensures r <= s
  {
    if n < |s| then s[..n] else s
  }

  /** Keeps, in order, the images of the elements that `f` maps to Some. */
  function Collect<T, U>(s: seq<T>, f: T -> Option<U>): seq<U>
  {
    if s == [] then []
    else
      var last := f(s[|s| - 1]);
      Collect(s[..|s| - 1], f) + (if last.Some? then [last.value] else [])
  }

  /** Collecting over a prefix gives a prefix of collecting over the whole list. */
  lemma {:induction false} CollectPrefix<T, U>(s: seq<T>, k: nat, f: T -> Option<U>)
    requires k <= |s|
    ensures Collect(s[..k], f) <= Collect(s, f)
    decreases |s| - k
  {
    if k < |s| {
      var t := s[..|s| - 1];
      assert s[..k] == t[..k];
      CollectPrefix(t, k, f);
    } else {
      assert s[..k] == s;
    }
  }

  /** Every collected value is the image of some element of the list. */
  lemma {:induction false} CollectSound<T, U>(s: seq<T>, f: T -> Option<U>, j: nat)
    requires j < |Collect(s, f)|
    ensures exists i :: 0 <= i < |s| && f(s[i]) == Some(Collect(s, f)[j])
  {
    var t := s[..|s| - 1];
    if j < |Collect(t, f)| {
      CollectSound(t, f, j);
      var i :| 0 <= i < |t| && f(t[i]) == Some(Collect(t, f)[j]);
      assert s[i] == t[i];
    } else {
      assert f(s[|s| - 1]) == Some(Collect(s, f)[j]);
    }
  }

  /** Every element that `f` maps to Some is collected. */
  lemma {:induction false} CollectComplete<T, U>(s: seq<T>, f: T -> Option<U>, i: nat)
    requires i < |s| && f(s[i]).Some?
    ensures f(s[i]).value in Collect(s, f)
  {
    var t := s[..|s| - 1];
    if i < |s| - 1 {
      assert t[i] == s[i];
      CollectComplete(t, f, i);
    }
  }

  /** Collecting one more element appends its image, if any. */
  lemma CollectSnoc<T, U>(s: seq<T>, i: nat, f: T -> Option<U>)
    requires i < |s|
    ensures Collect(s[..i + 1], f) ==
      Collect(s[..i], f) + (if f(s[i]).Some? then [f(s[i]).value] else [])
  {
    assert s[..i + 1][..i] == s[..i];
  }
}
